=== FILE: README.md ===
# Voice proxy: a Dafny model of its decision logic

The backend sits between a browser client and the Azure Voice Live
service. For each client websocket connection, the `VoiceProxyHandler` does the following:

1. It reads the client's first frame to learn which agent is wanted.
2. It asks the agent directory about that agent.
3. It dials the upstream voice-agent endpoint at a URL that selects the agent or a model.
4. It sends a `session.update` configuration.
5. It relays frames in both directions. Along the way it answers the `end_conversation` function call itself.

A few REST handlers sit beside the websocket endpoint: client configuration,
scenario lookup, agent creation and deletion, and conversation analysis.

This project models that logic as pure functions over immutable data:

- `PyJson` is a JSON datatype with Python's truthiness, `dict.get` and `str()`.
  It also holds an abstract `Runtime` that stands for `json.loads` and `json.dumps`.
- `Settings` holds the configuration record, the agent record, and the URL constants.
- `Wire` defines the events a connection emits (directory lookups, upstream
  dial, sends, forwards, close) and the frame types.
- `QueryString` splits a URL's query into parameters and proves that splitting
  reverses joining.
- `UpstreamUrl` models the URL builders.
- `SessionConfig` models the session message and the local-agent overlay.
- `Connector` models `_connect_to_azure` over a scripted directory answer, handshake outcome and configuration-send outcome.
- `Relay` covers the parts that process frames:
  - first-frame agent-id extraction;
  - the function-call interceptor;
  - both forwarding directions over one interleaving of receives.
- `Orchestrator` models `handle_connection`. It maps a scripted environment
  (`Script`) to the full trace of events, and gives views of the client side and the upstream side.
- `RestApi` models the status and body decisions of the HTTP handlers. The
  managers and analyzers are function parameters.

## Model

| member | source | states |
|---|---|---|
| UpstreamUrl.BuildUrl | backend/src/services/websocket_handler.py:143-178 | Every upstream URL extends the fixed base URL: the target parameter is appended, never inserted |
| UpstreamUrl.UrlPrefix | backend/src/services/websocket_handler.py:157-168 | Every URL starts with `wss://<resource>.cognitiveservices.azure.com/voice-agent/realtime?api-version=2025-05-01-preview`. When the resource name has no `?` and the request id, project name and target value contain no `&`, its query reads back as four parameters, the second and third being the request id and the project name |
| UpstreamUrl.UrlQueryParameters | backend/src/services/websocket_handler.py:157-178 | Parsing the built URL's query gives exactly the base parameters followed by the selected target parameter. This holds whenever the resource name has no `?` and the request id, project name and target value contain no `&` |
| UpstreamUrl.BuildUrlSelectsTarget | backend/src/services/websocket_handler.py:143-178 | The URL is the base plus `&agent-id=` or `&model=`, followed by the value that the first-match precedence selects |
| UpstreamUrl.AzureAgentUrl | backend/src/services/websocket_handler.py:149-175 | For a resolved record flagged `is_azure_agent`, the URL is the base plus `&agent-id=<client's id>`. Its query then has no `model` parameter and ends with that agent id |
| UpstreamUrl.LocalAgentUrl | backend/src/services/websocket_handler.py:176-178 | For a resolved local record, the URL is the base plus `&model=` followed by the record's model, or the default deployment when the key is absent. No `agent-id` parameter appears |
| UpstreamUrl.NumericAgentIdUrl | backend/src/services/websocket_handler.py:174-175 | A numeric agent id of a remote-hosted agent appears after `&agent-id=` as its signed decimal numeral, which reads back as that number |
| UpstreamUrl.UnresolvedUrl | backend/src/services/websocket_handler.py:149-155 | Without a resolved record, the URL names the configured default agent if one is set, else the default model. It is the same for every client agent id |
| SessionConfig.AddLocalAgentConfig | backend/src/services/websocket_handler.py:229-237 | The overlay succeeds iff `instructions`, `temperature` and `max_tokens` are all present. It then adds exactly the four overlay keys with the record's values (model defaulting to the deployment name) and leaves every other key unchanged. Otherwise it raises `KeyError` for a missing key |
| SessionConfig.InitialConfig | backend/src/services/websocket_handler.py:180-191 | A built message is a `session.update` with the fixed defaults unchanged. The overlay keys are present iff a local agent was resolved. Building fails exactly for a local agent missing one of the required keys |
| SessionConfig.SessionDefaults | backend/src/services/websocket_handler.py:193-227 | Every session declares exactly one tool, named `end_conversation`, with `tool_choice: auto`, text+audio modalities, semantic VAD and the `lisa`/`casual-sitting` avatar |
| SessionConfig.OverlayIffLocalAgent | backend/src/services/websocket_handler.py:186-189 | A local agent's instructions, temperature and token limit appear in the session. Without a resolved local agent, none of the overlay keys appear |
| Connector.Dial | backend/src/services/websocket_handler.py:123-137 | Without an API key nothing is emitted. With one, the first event is the connect to the URL carrying only the `api-key` header. Without a handle there is at most that connect. A handle comes back iff the handshake succeeded, the configuration was built and its send succeeded, and then the connect is followed by exactly one send of the configuration |
| Connector.Attempt | backend/src/services/websocket_handler.py:118-141 | The directory is asked only when the agent id is truthy, and only first. The socket is opened iff the lookup returned, a key is set and the handshake succeeded. A handle is returned iff the configuration was also built and sent, and the configuration send is then the last event |
| Connector.Connect | backend/src/services/websocket_handler.py:114-141 | A connect attempt only looks up, dials and sends the configuration. It returns a handle iff every step succeeds (lookup did not raise, key set, handshake ok, configuration built and sent). On success the configuration built from the looked-up record is the last and only send |
| Connector.ConnectLooksUpNamedAgent | backend/src/services/websocket_handler.py:119 | The directory is asked iff the client's agent id is truthy. It is asked about that id, and before anything else |
| Connector.ConnectWithoutAgent | backend/src/services/websocket_handler.py:119 | With a falsy agent id there is no directory lookup at all |
| Connector.ConnectDialsBuiltUrl | backend/src/services/websocket_handler.py:121-130 | Every dial happens with an API key set. It carries only the `api-key` header and goes to the URL built from the looked-up record |
| Connector.ConnectOpensSocket | backend/src/services/websocket_handler.py:119-141 | The upstream socket is opened iff the lookup (if any) returned, a key is set and the handshake succeeded. A handle implies an open socket. A socket left without a handle was the attempt's last action |
| Connector.UnknownAgentIsDefault | backend/src/services/websocket_handler.py:119-155 | A directory miss or an empty record connects exactly as no agent id does, apart from the lookup event itself |
| Connector.NoApiKeyNoSocket | backend/src/services/websocket_handler.py:123-126 | Without an API key nothing is dialled, no socket is open and no handle comes back |
| Connector.ConfigFailureLeavesSocketOpen | backend/src/services/websocket_handler.py:130-141 | A local record without `instructions` gets its socket opened but no handle back |
| Connector.ConfigSendFailureNeverClosed | backend/src/services/websocket_handler.py:130-141 | A configuration send that raises after the handshake ends the attempt with no handle, for any agent. The socket was dialled and the handler never closes it |
| Relay.FirstFrameAgentId | backend/src/services/websocket_handler.py:96-112 | A non-null id comes only from a non-empty first frame that parses to an object of type `session.update` with an object `session`. From such a frame the id is `session.agent_id` |
| Relay.FirstFrameRoundTrip | backend/src/services/websocket_handler.py:106-109 | A client `session.update` frame naming an agent yields exactly that agent id |
| Relay.UnparseableFirstFrame | backend/src/services/websocket_handler.py:106-112 | A first frame on which `json.loads` raises anything yields no id, the same as a closed connection |
| Relay.HandleFunctionCall | backend/src/services/websocket_handler.py:300-337 | A reply is produced iff `item_id` is truthy and the arguments parse to an object. The reply is a `conversation.item.create` carrying the call's `call_id`, and its output reports the given reason or the default one |
| Relay.EndedMessage | backend/src/services/websocket_handler.py:317-329 | The output message is `Conversation ended professionally. Reason: ` followed by the reason, or by `Conversation ended by agent` when no reason is given |
| Relay.UpstreamStep | backend/src/services/websocket_handler.py:281-297 | An upstream frame stops the loop iff parsing it raises something other than a decode error or it parses to a non-object, in which case nothing is emitted. Otherwise the raw frame is forwarded to the client, preceded by exactly one reply when it is an intercepted function call |
| Relay.NonJsonPassesThrough | backend/src/services/websocket_handler.py:285-296 | A frame on which `json.loads` raises a decode error is forwarded unchanged and draws no reply |
| Relay.ParseFailureStopsForwarding | backend/src/services/websocket_handler.py:285-298 | A frame on which `json.loads` raises anything else (a binary frame that is not valid text, nesting past the recursion limit) ends the upstream side without being forwarded |
| Relay.RelayFrames | backend/src/services/websocket_handler.py:239-298 | Relaying only forwards frames and sends function-call replies |
| Relay.RelayEndsAtFirstEnd | backend/src/services/websocket_handler.py:249-253 | The relay stops at the first direction that ends. Nothing after that input has any effect. The client has then received exactly the upstream's texts before it, and the upstream exactly the client's |
| Relay.LostFrameEndsRelay | backend/src/services/websocket_handler.py:261-298 | A forwarding send that raises ends the relay. A lost client frame produces nothing more. A lost upstream frame still draws its function-call reply, if any, but is not forwarded |
| Relay.RelayIsTransparent | backend/src/services/websocket_handler.py:255-298 | What reaches the client is a prefix of what the upstream sent. What reaches the upstream (excluding replies) is a prefix of what the client sent. While neither side ends, each is all of it, in order |
| Orchestrator.SendError | backend/src/services/websocket_handler.py:352-363 | Reporting an error sends exactly two frames, both the same error frame |
| Orchestrator.HandleConnection | backend/src/services/websocket_handler.py:60-94 | The trace begins with the connect attempt. It contains an upstream close iff a handle was returned, and then ends with it |
| Orchestrator.ConnectFailureTrace | backend/src/services/websocket_handler.py:74-79 | After a failed connect the client receives only two `Failed to connect to Azure Voice API` error frames. Nothing goes upstream and nothing is closed |
| Orchestrator.ConnectSuccessTrace | backend/src/services/websocket_handler.py:81-94 | After a successful connect the client's first frame is `proxy.connected` and everything after it is forwarded. The first upstream frame is the `session.update`, followed only by forwards and replies. The handle is closed exactly once |
| Orchestrator.ConfigFailureLeaksSocket | backend/src/services/websocket_handler.py:92-94 | When the handshake succeeds but no handle is returned, the trace dials the socket and the handler never closes it. This happens when the configuration cannot be built or its send raises |
| Orchestrator.UnparseableFirstFrameUsesDefault | backend/src/services/websocket_handler.py:71-74 | A connection whose first frame does not parse behaves exactly like one whose client sent nothing |
| Orchestrator.NoAgentNoLookup | backend/src/services/websocket_handler.py:72-74 | Without an agent id from the first frame, the directory is never asked anywhere in the connection |
| RestApi.GetConfig | backend/src/app.py:37-40 | The configuration answer is 200 with exactly `proxy_enabled: true` and `ws_endpoint: "/ws/voice"` |
| RestApi.GetScenario | backend/src/app.py:49-55 | The answer is 200 with the scenario iff the directory returns a truthy one. A directory that raises makes the handler raise; otherwise the answer is 404 `Scenario not found` |
| RestApi.CreateAgent | backend/src/app.py:58-76 | The handler raises iff the body is not an object or the unguarded scenario lookup raises. Otherwise the answer is 400 iff `scenario_id` is falsy, 404 iff the scenario is unknown, 500 with the exception text iff creation raises, and 200 with exactly `agent_id` and the request's `scenario_id` iff creation succeeds |
| RestApi.CreateAgentRefusals | backend/src/app.py:62-69 | A falsy `scenario_id` is refused with no collaborator call. An unknown scenario, or a lookup that raises, ends after the lookup alone, without creation |
| RestApi.CreationFollowsLookup | backend/src/app.py:67-73 | Creation happens at most once, last, right after a lookup of the same id that returned a truthy scenario, and with that scenario |
| RestApi.DeleteAgent | backend/src/app.py:79-87 | Deletion is attempted once. The answer is 200 `{success: true}` iff it does not raise, else 500 with the exception text |
| RestApi.AnalyzeConversation | backend/src/app.py:90-133 | A non-object body or a truthy transcript without a length raises. The answer is 400 iff either field is falsy, with no analyzer call. Otherwise it is 200 after calling both analyzers (audio defaults to `[]`), and each field holds its analyzer's result or null if that analyzer raised |
| RestApi.AssessmentsIndependent | backend/src/app.py:108-130 | Each field of the analysis depends only on its own analyzer, so one failing does not change the other |
| RestApi.AnalyzeAlwaysReports | backend/src/app.py:102-130 | The analysis answers 200 iff the body is an object with a truthy scenario id and a truthy, sized transcript, whether each analyzer returns or raises while it runs |
| RestApi.LengthlessTranscriptRaises | backend/src/app.py:98-103 | A truthy transcript without a length (a non-zero integer or float, or `true`) makes the handler raise before validation, so it is never answered with the 400 refusal |
| RestApi.RefusalsCarryMessage | backend/src/app.py:64-76 | Every non-200 answer of the handlers is an object whose only field is the `error` message |
| PyJson.DecimalRoundTrip | backend/src/services/websocket_handler.py:175 | The decimal text `str()` gives an integer id reads back as that integer |
| QueryString.QueryRoundTrip | backend/src/services/websocket_handler.py:163-168 | Joining parameters into a query and splitting it again gives the parameters back, if keys hold no `=` or `&` and values no `&` |

## Left out

- Concurrency: the two forwarding tasks, `asyncio.wait(FIRST_COMPLETED)`, task cancellation and the executor threads (backend/src/services/websocket_handler.py:239-253). They are modelled as one sequential interleaving of receives (`RelayInput`) that stops at the first direction to end.
- Transport: `websockets.connect` and the `simple_websocket` send/receive are not modelled. They are inputs instead:
  - the handshake outcome;
  - whether the configuration send succeeds;
  - the receives, and which forwarding sends raise (`ClientFrameLost`, `UpstreamFrameLost`);
  - the directory answer or exception.
- Failed sends whose exception is swallowed are not modelled. These are the `proxy.connected` and error frames sent through `_send_message`, and the function-call reply, whose failure `_handle_function_call` catches. They appear in the trace as sent.
- Binary and text frames are not told apart. A frame's payload is modelled as its text. A binary frame that `json.loads` cannot read shows up only through the `OtherError` parse outcome, and whether a forwarded frame goes out as binary or text is not tracked.
- `json.loads` and `json.dumps` are an abstract `Runtime`; `str()` of floats, lists and dicts goes through the same abstraction. Dictionary key order is not modelled: JSON objects are maps.
- `uuid.uuid4()` is the `requestId` parameter. The configuration lookups are the fields of `Settings.Config`.
- Logging and log truncation (`LOG_MESSAGE_MAX_LENGTH`) are not modelled: they only have side effects.
- The `except` branch of `handle_connection` (backend/src/services/websocket_handler.py:88-90) is not modelled. Every helper it guards catches its own exceptions or is modelled as ending quietly, so in this model it is unreachable.
- Bearer tokens and a voice setting in the session are not modelled: the handler as written only uses the `api-key` header. backend/src/app.py:28 passes a token manager that the constructor (backend/src/services/websocket_handler.py:51) does not take.
- `AgentManager`, `ScenarioManager`, `ConversationAnalyzer`, `PronunciationAssessor` and `config` are not part of this model. They are abstract functions or records passed in.
- Flask routing, `index`, `audio_processor`, `get_scenarios` (a plain pass-through of the manager's list), `voice_proxy`, the event-loop setup and `main` are framework glue.
- A request body that is not JSON at all is not modelled. There, reading `request.json`, the handler's first line (backend/src/app.py:61, backend/src/app.py:93), raises Flask's own client-error response. A JSON body that is not an object is modelled as `Unhandled`.
- The unit tests for `_log_analyze_request` and `_perform_conversation_analysis` (backend/tests/unit/test_app.py:232-265) are not modelled, because the handler has no such functions.
- RestApi.AnalyzeConversation: assumes that calling `analyze_conversation` and `assess_pronunciation` (backend/src/app.py:110-111) only creates the awaitables and never raises, and that `jsonify` can serialise whatever they return (backend/src/app.py:128). The analyzers are modelled as returning JSON or raising while they run. A raise at call time, something `gather` cannot await, or an unserialisable result would escape the `try`/`finally` at backend/src/app.py:108-133 and make Flask answer 500, and that case is not modelled.
- RestApi.AnalyzeAlwaysReports: the 200 answer rests on the same two assumptions as RestApi.AnalyzeConversation. Analyzer calls that raise, or results that cannot be serialised, are not covered.
- Relay.RelayIsTransparent: on the upstream side the relayed frames are compared with what the client sent, excluding the proxy's own function-call replies. Replies are described separately by Relay.UpstreamStep.

=== FILE: connector.dfy ===
/**
 * Opening the upstream connection: resolve the agent record (only when the
 * client named an agent), build the URL, refuse without an API key, dial
 * with the `api-key` header, and send the session configuration once.
 * Every failure makes the attempt return no handle; none escapes.
 */
module Connector {
  import opened PyJson
  import opened Settings
  import opened Wire
  import opened UpstreamUrl
  import opened SessionConfig

  /** What the agent directory did when asked: returned a record or `None`, or raised. */
  datatype Lookup = LookupReturns(record: Option<AgentRecord>) | LookupRaises

  /**
   * One connect attempt: what it did, in order; whether it returned a
   * handle; whether the handshake succeeded, so that the handler holds an
   * upstream socket (whether the library later closes it is not modelled).
   */
  datatype Connection = Connection(events: seq<Event>, handle: bool, socketOpen: bool)

  /** The only events a connect attempt produces. */
  predicate IsConnectEvent(e: Event) {
    e.DirectoryLookup? || e.UpstreamConnect? || (e.UpstreamSend? && HasType(e.frame, SessionUpdateType))
  }

  function ApiKeyHeaders(key: string): map<string, string> {
    map["api-key" := key]
  }

  /** The record the URL and session configuration are built from. */
  function AgentConfigFor(agentId: Json, lookup: Lookup): Option<AgentRecord> {
    if Truthy(agentId) && lookup.LookupReturns? then lookup.record else None
  }

  /** Everything a connect attempt needs to return a handle. */
  predicate CanConnect(cfg: Config, agentId: Json, lookup: Lookup, socketOpens: bool, configSent: bool) {
    && (!Truthy(agentId) || lookup.LookupReturns?)
    && IsSet(cfg.apiKey)
    && socketOpens
    && Buildable(AgentConfigFor(agentId, lookup))
    && configSent
  }

  /**
   * Dial `url` and send the configuration message `init`: refuse without an
   * API key, then connect with the single `api-key` header, and send the
   * configuration if it could be built. `configSent` says whether that send
   * succeeds; after a failed send the handler keeps the socket without
   * returning a handle, and never closes it.
   */
  function Dial(cfg: Config, url: string, init: Outcome<Json>, socketOpens: bool, configSent: bool): (c: Connection)
    ensures forall e :: e in c.events ==> e.UpstreamConnect? || (init.Ok? && e == UpstreamSend(init.value))
    ensures forall e :: e in c.events && e.UpstreamConnect? ==>
              IsSet(cfg.apiKey) && e.headers == ApiKeyHeaders(cfg.apiKey.value) && e.url == url
    ensures c.socketOpen <==> IsSet(cfg.apiKey) && socketOpens
    ensures c.handle <==> IsSet(cfg.apiKey) && socketOpens && init.Ok? && configSent
    ensures c.handle ==> (|c.events| == 2 && c.events[0].UpstreamConnect? && c.events[1] == UpstreamSend(init.value))
    ensures !c.handle ==> forall e :: e in c.events ==> e.UpstreamConnect?
    ensures c.socketOpen && !c.handle ==> |c.events| == 1
    ensures IsSet(cfg.apiKey) <==> |c.events| >= 1
    ensures IsSet(cfg.apiKey) ==> c.events[0] == UpstreamConnect(url, ApiKeyHeaders(cfg.apiKey.value))
    ensures !c.handle ==> |c.events| <= 1
  {
    if !IsSet(cfg.apiKey) then Connection([], false, false)
    else
      var dialled := [UpstreamConnect(url, ApiKeyHeaders(cfg.apiKey.value))];
      if !socketOpens then Connection(dialled, false, false)
      else
        match init
        case Raised(_) => Connection(dialled, false, true)
        case Ok(msg) => if configSent then Connection(dialled + [UpstreamSend(msg)], true, true) else Connection(dialled, false, true)
  }

  /** Dial after asking the directory about `agentId`. */
  function DialLookedUp(cfg: Config, agentId: Json, url: string, init: Outcome<Json>, socketOpens: bool, configSent: bool): (c: Connection)
    ensures |c.events| >= 1 && c.events[0] == DirectoryLookup(agentId)
    ensures forall e :: e in c.events ==> e == DirectoryLookup(agentId) || e.UpstreamConnect? || (init.Ok? && e == UpstreamSend(init.value))
    ensures forall k :: 1 <= k < |c.events| ==> !c.events[k].DirectoryLookup?
    ensures forall e :: e in c.events && e.UpstreamConnect? ==>
              IsSet(cfg.apiKey) && e.headers == ApiKeyHeaders(cfg.apiKey.value) && e.url == url
    ensures c.socketOpen <==> IsSet(cfg.apiKey) && socketOpens
    ensures c.handle <==> IsSet(cfg.apiKey) && socketOpens && init.Ok? && configSent
    ensures c.handle ==> |c.events| == 3 && c.events[2] == UpstreamSend(init.value)
    ensures c.socketOpen && !c.handle ==> c.events[|c.events| - 1].UpstreamConnect?
    ensures forall k :: 0 <= k < |c.events| && c.events[k].UpstreamSend? ==> c.handle && k == |c.events| - 1
  {
    var d := Dial(cfg, url, init, socketOpens, configSent);
    var events := [DirectoryLookup(agentId)] + d.events;
    assert forall k :: 1 <= k < |events| ==> events[k] == d.events[k - 1] && d.events[k - 1] in d.events;
    Connection(events, d.handle, d.socketOpen)
  }

  /**
   * The connect attempt once the URL and the configuration message that
   * would be used are known.
   */
  function Attempt(cfg: Config, agentId: Json, lookup: Lookup, url: string, init: Outcome<Json>, socketOpens: bool,
                   configSent: bool): (c: Connection)
    ensures forall e :: e in c.events ==>
              e.DirectoryLookup? || e.UpstreamConnect? || (init.Ok? && e == UpstreamSend(init.value))
    ensures (exists e :: e in c.events && e.DirectoryLookup?) <==> Truthy(agentId)
    ensures forall k :: 0 <= k < |c.events| && c.events[k].DirectoryLookup? ==> k == 0 && c.events[k].agentId == agentId
    ensures forall e :: e in c.events && e.UpstreamConnect? ==>
              IsSet(cfg.apiKey) && e.headers == ApiKeyHeaders(cfg.apiKey.value) && e.url == url
    ensures c.handle <==> (!Truthy(agentId) || lookup.LookupReturns?) && IsSet(cfg.apiKey) && socketOpens && init.Ok? && configSent
    ensures c.socketOpen <==> (!Truthy(agentId) || lookup.LookupReturns?) && IsSet(cfg.apiKey) && socketOpens
    ensures c.handle ==> (|c.events| >= 2 && c.events[|c.events| - 1] == UpstreamSend(init.value))
    ensures c.socketOpen && !c.handle ==> |c.events| > 0 && c.events[|c.events| - 1].UpstreamConnect?
    ensures forall k :: 0 <= k < |c.events| && c.events[k].UpstreamSend? ==> c.handle && k == |c.events| - 1
  {
    if !Truthy(agentId) then
      Dial(cfg, url, init, socketOpens, configSent)
    else
      match lookup
      case LookupRaises =>
        assert [DirectoryLookup(agentId)][0] == DirectoryLookup(agentId);
        Connection([DirectoryLookup(agentId)], false, false)
      case LookupReturns(_) =>
        var c := DialLookedUp(cfg, agentId, url, init, socketOpens, configSent);
        assert c.events[0] in c.events;
        c
  }

  /**
   * Connect for the client's `agentId`. `lookup` is what the directory does
   * if asked, `socketOpens` whether the websocket handshake succeeds,
   * `configSent` whether sending the configuration succeeds, and
   * `requestId` the fresh correlation id. The handle comes back exactly
   * when every step succeeds, and then the configuration was the last thing
   * sent.
   */
  function Connect(rt: Runtime, cfg: Config, requestId: string, agentId: Json, lookup: Lookup, socketOpens: bool, configSent: bool): (c: Connection)
    ensures forall e :: e in c.events ==> IsConnectEvent(e)
    ensures c.handle <==> CanConnect(cfg, agentId, lookup, socketOpens, configSent)
    ensures c.handle ==> (|c.events| >= 2
              && c.events[|c.events| - 1] == UpstreamSend(InitialConfig(cfg, AgentConfigFor(agentId, lookup)).value))
    ensures forall k :: 0 <= k < |c.events| && c.events[k].UpstreamSend? ==> c.handle && k == |c.events| - 1
  {
    var agentConfig := AgentConfigFor(agentId, lookup);
    Attempt(cfg, agentId, lookup, BuildUrl(rt, cfg, requestId, agentId, agentConfig), InitialConfig(cfg, agentConfig), socketOpens, configSent)
  }

  /**
   * The directory is asked exactly when the client named a (truthy) agent,
   * about that agent, and before anything is dialled.
   */
  lemma ConnectLooksUpNamedAgent(rt: Runtime, cfg: Config, requestId: string, agentId: Json, lookup: Lookup, socketOpens: bool, configSent: bool)
    ensures var c := Connect(rt, cfg, requestId, agentId, lookup, socketOpens, configSent);
      && ((exists e :: e in c.events && e.DirectoryLookup?) <==> Truthy(agentId))
      && (forall k :: 0 <= k < |c.events| && c.events[k].DirectoryLookup? ==> k == 0 && c.events[k].agentId == agentId)
  {
  }

  /** Without a (truthy) agent id the directory is not asked. */
  lemma ConnectWithoutAgent(rt: Runtime, cfg: Config, requestId: string, agentId: Json, lookup: Lookup, socketOpens: bool, configSent: bool)
    requires !Truthy(agentId)
    ensures forall e :: e in Connect(rt, cfg, requestId, agentId, lookup, socketOpens, configSent).events ==> !e.DirectoryLookup?
  {
  }

  /**
   * Every dial carries the single `api-key` header and goes to the URL
   * built from the looked-up record; without an API key nothing is dialled.
   */
  lemma ConnectDialsBuiltUrl(rt: Runtime, cfg: Config, requestId: string, agentId: Json, lookup: Lookup, socketOpens: bool, configSent: bool)
    ensures var c := Connect(rt, cfg, requestId, agentId, lookup, socketOpens, configSent);
      forall e :: e in c.events && e.UpstreamConnect? ==>
        && IsSet(cfg.apiKey) && e.headers == ApiKeyHeaders(cfg.apiKey.value)
        && e.url == BuildUrl(rt, cfg, requestId, agentId, AgentConfigFor(agentId, lookup))
  {
  }

  /**
   * An upstream socket is left open exactly when the lookup (if any)
   * returned, an API key is set and the handshake succeeded; without a
   * handle it is the attempt's last event.
   */
  lemma ConnectOpensSocket(rt: Runtime, cfg: Config, requestId: string, agentId: Json, lookup: Lookup, socketOpens: bool, configSent: bool)
    ensures var c := Connect(rt, cfg, requestId, agentId, lookup, socketOpens, configSent);
      && (c.socketOpen <==> (!Truthy(agentId) || lookup.LookupReturns?) && IsSet(cfg.apiKey) && socketOpens)
      && (c.handle ==> c.socketOpen)
      && (c.socketOpen && !c.handle ==> |c.events| > 0 && c.events[|c.events| - 1].UpstreamConnect?)
  {
  }

  /**
   * An agent id the directory does not know (a miss or an empty record)
   * connects exactly as no agent id does, apart from the lookup itself.
   */
  lemma UnknownAgentIsDefault(rt: Runtime, cfg: Config, requestId: string, agentId: Json, miss: Option<AgentRecord>,
                              anyLookup: Lookup, socketOpens: bool, configSent: bool)
    requires Truthy(agentId) && !Resolved(miss)
    ensures var c := Connect(rt, cfg, requestId, agentId, LookupReturns(miss), socketOpens, configSent);
            var d := Connect(rt, cfg, requestId, JNull, anyLookup, socketOpens, configSent);
      c.events == [DirectoryLookup(agentId)] + d.events && c.handle == d.handle
  {
    assert AgentConfigFor(agentId, LookupReturns(miss)) == miss;
    assert AgentConfigFor(JNull, anyLookup) == None;
    UnresolvedUrl(rt, cfg, requestId, agentId, miss);
    assert BuildUrl(rt, cfg, requestId, agentId, miss) == BuildUrl(rt, cfg, requestId, JNull, None);
    assert InitialConfig(cfg, miss) == InitialConfig(cfg, None) == Ok(BuildSessionConfig());
  }

  /** Without an API key nothing is dialled and no handle comes back. */
  lemma NoApiKeyNoSocket(rt: Runtime, cfg: Config, requestId: string, agentId: Json, lookup: Lookup, socketOpens: bool, configSent: bool)
    requires !IsSet(cfg.apiKey)
    ensures var c := Connect(rt, cfg, requestId, agentId, lookup, socketOpens, configSent);
      !c.handle && !c.socketOpen && forall e :: e in c.events ==> e.DirectoryLookup?
  {
  }

  /**
   * A local agent record without `instructions` opens the socket but the
   * session configuration fails, so no handle is returned for it.
   */
  lemma ConfigFailureLeavesSocketOpen(rt: Runtime, cfg: Config, requestId: string, agentId: Json, rec: AgentRecord, configSent: bool)
    requires Truthy(agentId) && IsSet(cfg.apiKey)
    requires |rec| > 0 && !IsAzureAgent(rec) && "instructions" !in rec
    ensures var c := Connect(rt, cfg, requestId, agentId, LookupReturns(Some(rec)), true, configSent);
      c.socketOpen && !c.handle && (exists e :: e in c.events && e.UpstreamConnect?)
  {
    var c := Connect(rt, cfg, requestId, agentId, LookupReturns(Some(rec)), true, configSent);
    assert c.events[|c.events| - 1].UpstreamConnect?;
  }

  /**
   * A configuration send that raises after the handshake also ends without
   * a handle, whatever the agent. The handler has dialled the socket and
   * never closes it; whether the connection itself is still up is for the
   * websocket library to say.
   */
  lemma ConfigSendFailureNeverClosed(rt: Runtime, cfg: Config, requestId: string, agentId: Json, lookup: Lookup)
    requires IsSet(cfg.apiKey) && (!Truthy(agentId) || lookup.LookupReturns?)
    ensures var c := Connect(rt, cfg, requestId, agentId, lookup, true, false);
      c.socketOpen && !c.handle && (exists e :: e in c.events && e.UpstreamConnect?)
  {
    var c := Connect(rt, cfg, requestId, agentId, lookup, true, false);
    assert c.events[|c.events| - 1].UpstreamConnect?;
  }
}

=== FILE: orchestrator.dfy ===
/**
 * The lifecycle of one client connection as a trace: read the first frame,
 * connect upstream, report failure or acknowledge, relay, and close the
 * upstream handle if one was returned.
 */
module Orchestrator {
  import opened PyJson
  import opened Settings
  import opened Wire
  import opened Connector
  import opened Relay

  const ConnectFailedMessage: string := "Failed to connect to Azure Voice API"

  /**
   * What the outside world does during one connection: the client's first
   * receive, the directory's answer, whether the upstream handshake succeeds,
   * whether sending the session configuration succeeds, and one interleaving
   * of the receives on both sides afterwards.
   */
  datatype Script = Script(first: Receive, lookup: Lookup, socketOpens: bool, configSent: bool, relay: seq<RelayInput>)

  /** Reporting an error to the client sends the same error frame twice. */
  function SendError(message: string): (sent: seq<Event>)
    ensures |sent| == 2 && forall e :: e in sent ==> e == ClientSend(ErrorFrame(message))
  {
    var frame := ClientSend(ErrorFrame(message));
    [frame, frame]
  }

  /** The connect attempt a script leads to. */
  function Upstream(rt: Runtime, cfg: Config, requestId: string, sc: Script): Connection {
    Connect(rt, cfg, requestId, FirstFrameAgentId(rt, sc.first), sc.lookup, sc.socketOpens, sc.configSent)
  }

  /** What every connect attempt guarantees about its events. */
  predicate WellFormed(c: Connection) {
    && (forall e :: e in c.events ==> IsConnectEvent(e))
    && (c.handle ==> |c.events| >= 1 && c.events[|c.events| - 1].UpstreamSend?
                     && HasType(c.events[|c.events| - 1].frame, SessionUpdateType))
    && (forall k :: 0 <= k < |c.events| && c.events[k].UpstreamSend? ==> c.handle && k == |c.events| - 1)
  }

  lemma UpstreamWellFormed(rt: Runtime, cfg: Config, requestId: string, sc: Script)
    ensures WellFormed(Upstream(rt, cfg, requestId, sc))
  {
  }

  /** The rest of the connection once the connect attempt is over. */
  function Finish(c: Connection, relayed: seq<Event>): seq<Event> {
    if !c.handle then c.events + SendError(ConnectFailedMessage)
    else c.events + [ClientSend(ProxyConnectedFrame())] + relayed + [UpstreamClose]
  }

  /** Everything one client connection does, in order. */
  function HandleConnection(rt: Runtime, cfg: Config, requestId: string, sc: Script): (trace: seq<Event>)
    ensures Upstream(rt, cfg, requestId, sc).events <= trace
    ensures UpstreamClose in trace <==> Upstream(rt, cfg, requestId, sc).handle
    ensures Upstream(rt, cfg, requestId, sc).handle ==> trace[|trace| - 1] == UpstreamClose
  {
    var c := Upstream(rt, cfg, requestId, sc);
    UpstreamWellFormed(rt, cfg, requestId, sc);
    var relayed := RelayFrames(rt, sc.relay);
    FinishShape(c, relayed);
    Finish(c, relayed)
  }

  lemma FinishShape(c: Connection, relayed: seq<Event>)
    requires WellFormed(c)
    requires forall e :: e in relayed ==> IsRelayEvent(e)
    ensures c.events <= Finish(c, relayed)
    ensures UpstreamClose in Finish(c, relayed) <==> c.handle
    ensures c.handle ==> Finish(c, relayed)[|Finish(c, relayed)| - 1] == UpstreamClose
  {
    var t := Finish(c, relayed);
    if c.handle {
      assert t == c.events + ([ClientSend(ProxyConnectedFrame())] + relayed + [UpstreamClose]);
    } else {
      assert UpstreamClose !in c.events;
    }
  }

  /** The frames the client receives, in order. */
  function ClientSide(trace: seq<Event>): seq<Event> {
    Filter(trace, ToClient)
  }

  /** The frames sent upstream, in order. */
  function UpstreamSide(trace: seq<Event>): seq<Event> {
    Filter(trace, ToUpstream)
  }

  /** How many times a trace closes the upstream handle. */
  function Closes(trace: seq<Event>): nat {
    |Filter(trace, (e: Event) => e.UpstreamClose?)|
  }

  /**
   * After a failed connect the client receives exactly two identical error
   * frames: no acknowledgement, no forwarding, and no close.
   */
  lemma FailureShape(c: Connection, relayed: seq<Event>)
    requires WellFormed(c) && !c.handle
    ensures ClientSide(Finish(c, relayed)) == SendError(ConnectFailedMessage)
    ensures UpstreamSide(Finish(c, relayed)) == []
    ensures Closes(Finish(c, relayed)) == 0
  {
    FailureClientSide(c);
    FailureNothingElse(c);
  }

  lemma {:induction false} FailureClientSide(c: Connection)
    requires WellFormed(c) && !c.handle
    ensures ClientSide(c.events + SendError(ConnectFailedMessage)) == SendError(ConnectFailedMessage)
  {
    var err := SendError(ConnectFailedMessage);
    FilterNone(c.events, ToClient);
    FilterAll(err, ToClient);
    FilterConcat(c.events, err, ToClient);
  }

  lemma {:induction false} FailureNothingElse(c: Connection)
    requires WellFormed(c) && !c.handle
    ensures UpstreamSide(c.events + SendError(ConnectFailedMessage)) == []
    ensures Closes(c.events + SendError(ConnectFailedMessage)) == 0
  {
    var t := c.events + SendError(ConnectFailedMessage);
    forall e | e in t ensures !ToUpstream(e) && !e.UpstreamClose? {
      assert e in c.events || e in SendError(ConnectFailedMessage);
    }
    FilterNone(t, ToUpstream);
    FilterNone(t, (e: Event) => e.UpstreamClose?);
  }

  /** After a successful connect the client first receives `proxy.connected`, then forwarded frames. */
  lemma {:induction false} SuccessClientSide(c: Connection, relayed: seq<Event>)
    requires WellFormed(c) && c.handle
    ensures ClientSide(Finish(c, relayed)) == [ClientSend(ProxyConnectedFrame())] + ClientSide(relayed)
  {
    var ack := [ClientSend(ProxyConnectedFrame())];
    var close := [UpstreamClose];
    var a := c.events + ack;
    var b := a + relayed;
    assert Finish(c, relayed) == b + close;
    FilterNone(c.events, ToClient);
    FilterAll(ack, ToClient);
    FilterConcat(c.events, ack, ToClient);
    assert ClientSide(a) == ack;
    FilterConcat(a, relayed, ToClient);
    FilterNone(close, ToClient);
    FilterConcat(b, close, ToClient);
  }

  /** The only upstream frame of a successful connect attempt is its last event. */
  lemma ConnectUpstreamSide(c: Connection)
    requires WellFormed(c) && c.handle
    ensures UpstreamSide(c.events) == [c.events[|c.events| - 1]]
  {
    var prefix := c.events[..|c.events| - 1];
    var last := c.events[|c.events| - 1];
    assert c.events == prefix + [last];
    forall e | e in prefix ensures !ToUpstream(e) {
      assert e in c.events;
    }
    FilterNone(prefix, ToUpstream);
    FilterAll([last], ToUpstream);
    FilterConcat(prefix, [last], ToUpstream);
  }

  /** After a successful connect upstream first receives the connect attempt's own send, then relayed frames. */
  lemma {:induction false} SuccessUpstreamSide(c: Connection, relayed: seq<Event>)
    requires WellFormed(c) && c.handle
    ensures UpstreamSide(Finish(c, relayed)) == [c.events[|c.events| - 1]] + UpstreamSide(relayed)
  {
    var ack := [ClientSend(ProxyConnectedFrame())];
    var close := [UpstreamClose];
    var a := c.events + ack;
    var b := a + relayed;
    assert Finish(c, relayed) == b + close;
    ConnectUpstreamSide(c);
    FilterNone(ack, ToUpstream);
    FilterConcat(c.events, ack, ToUpstream);
    assert UpstreamSide(a) == [c.events[|c.events| - 1]];
    FilterConcat(a, relayed, ToUpstream);
    FilterNone(close, ToUpstream);
    FilterConcat(b, close, ToUpstream);
  }

  /** After a successful connect the handle is closed exactly once. */
  lemma {:induction false} SuccessClosesOnce(c: Connection, relayed: seq<Event>)
    requires WellFormed(c) && c.handle
    requires forall e :: e in relayed ==> IsRelayEvent(e)
    ensures Closes(Finish(c, relayed)) == 1
  {
    var ack := [ClientSend(ProxyConnectedFrame())];
    var close := [UpstreamClose];
    var isClose := (e: Event) => e.UpstreamClose?;
    var a := c.events + ack;
    var b := a + relayed;
    assert Finish(c, relayed) == b + close;
    forall e | e in b ensures !isClose(e) {
      assert e in a || e in relayed;
    }
    FilterNone(b, isClose);
    FilterAll(close, isClose);
    FilterConcat(b, close, isClose);
  }

  /** The success facts, stated over an abstract connect attempt. */
  lemma SuccessTrace(c: Connection, relayed: seq<Event>)
    requires WellFormed(c) && c.handle
    requires forall e :: e in relayed ==> IsRelayEvent(e)
    ensures var cs := ClientSide(Finish(c, relayed));
      && |cs| > 0 && cs[0] == ClientSend(ProxyConnectedFrame())
      && forall k :: 1 <= k < |cs| ==> cs[k].ClientForward?
    ensures var us := UpstreamSide(Finish(c, relayed));
      && |us| > 0 && us[0].UpstreamSend? && HasType(us[0].frame, SessionUpdateType)
      && forall k :: 1 <= k < |us| ==> us[k].UpstreamForward? || IsReply(us[k])
    ensures Closes(Finish(c, relayed)) == 1
  {
    SuccessClientSide(c, relayed);
    SuccessUpstreamSide(c, relayed);
    SuccessClosesOnce(c, relayed);
    var cs := ClientSide(Finish(c, relayed));
    forall k | 1 <= k < |cs| ensures cs[k].ClientForward? {
      assert cs[k] in ClientSide(relayed);
    }
    var us := UpstreamSide(Finish(c, relayed));
    forall k | 1 <= k < |us| ensures us[k].UpstreamForward? || IsReply(us[k]) {
      assert us[k] in UpstreamSide(relayed);
    }
  }

  /**
   * A failed connect reaches the client only as two identical error frames
   * saying `Failed to connect to Azure Voice API`; nothing is forwarded in
   * either direction and no handle is closed.
   */
  lemma ConnectFailureTrace(rt: Runtime, cfg: Config, requestId: string, sc: Script)
    requires !Upstream(rt, cfg, requestId, sc).handle
    ensures var trace := HandleConnection(rt, cfg, requestId, sc);
      && ClientSide(trace) == [ClientSend(ErrorFrame(ConnectFailedMessage)), ClientSend(ErrorFrame(ConnectFailedMessage))]
      && UpstreamSide(trace) == []
      && Closes(trace) == 0
  {
    UpstreamWellFormed(rt, cfg, requestId, sc);
    FailureShape(Upstream(rt, cfg, requestId, sc), RelayFrames(rt, sc.relay));
  }

  /**
   * A successful connect is acknowledged with `proxy.connected` before any
   * forwarded frame reaches the client, the session configuration is the
   * first frame upstream and the only one the proxy composes apart from
   * function-call replies, and the handle is closed exactly once.
   */
  lemma ConnectSuccessTrace(rt: Runtime, cfg: Config, requestId: string, sc: Script)
    requires Upstream(rt, cfg, requestId, sc).handle
    ensures var cs := ClientSide(HandleConnection(rt, cfg, requestId, sc));
      && |cs| > 0 && cs[0] == ClientSend(ProxyConnectedFrame())
      && forall k :: 1 <= k < |cs| ==> cs[k].ClientForward?
    ensures var us := UpstreamSide(HandleConnection(rt, cfg, requestId, sc));
      && |us| > 0 && us[0].UpstreamSend? && HasType(us[0].frame, SessionUpdateType)
      && forall k :: 1 <= k < |us| ==> us[k].UpstreamForward? || IsReply(us[k])
    ensures Closes(HandleConnection(rt, cfg, requestId, sc)) == 1
  {
    UpstreamWellFormed(rt, cfg, requestId, sc);
    SuccessTrace(Upstream(rt, cfg, requestId, sc), RelayFrames(rt, sc.relay));
  }

  /**
   * If the handshake succeeded but no handle is returned, because the
   * session configuration cannot be built or its send raises, the handler
   * never closes that socket: the trace dials but has no close.
   */
  lemma ConfigFailureLeaksSocket(rt: Runtime, cfg: Config, requestId: string, sc: Script)
    requires Upstream(rt, cfg, requestId, sc).socketOpen && !Upstream(rt, cfg, requestId, sc).handle
    ensures var trace := HandleConnection(rt, cfg, requestId, sc);
      (exists e :: e in trace && e.UpstreamConnect?) && Closes(trace) == 0
  {
    var c := Upstream(rt, cfg, requestId, sc);
    ConnectOpensSocket(rt, cfg, requestId, FirstFrameAgentId(rt, sc.first), sc.lookup, sc.socketOpens, sc.configSent);
    ConnectFailureTrace(rt, cfg, requestId, sc);
    assert c.events[|c.events| - 1] in HandleConnection(rt, cfg, requestId, sc);
  }

  /** An unparseable first frame leads to the same connection as no first frame. */
  lemma UnparseableFirstFrameUsesDefault(rt: Runtime, cfg: Config, requestId: string, sc: Script)
    requires sc.first.Frame? && !rt.loads(sc.first.text).Parsed?
    ensures HandleConnection(rt, cfg, requestId, sc) == HandleConnection(rt, cfg, requestId, sc.(first := Closed))
  {
    UnparseableFirstFrame(rt, sc.first.text);
    assert FirstFrameAgentId(rt, sc.first) == FirstFrameAgentId(rt, Closed);
    assert Upstream(rt, cfg, requestId, sc) == Upstream(rt, cfg, requestId, sc.(first := Closed));
  }

  /** Without an agent id from the first frame the directory is never asked. */
  lemma NoAgentNoLookup(rt: Runtime, cfg: Config, requestId: string, sc: Script)
    requires !Truthy(FirstFrameAgentId(rt, sc.first))
    ensures forall e :: e in HandleConnection(rt, cfg, requestId, sc) ==> !e.DirectoryLookup?
  {
    var id := FirstFrameAgentId(rt, sc.first);
    var c := Connect(rt, cfg, requestId, id, sc.lookup, sc.socketOpens, sc.configSent);
    ConnectWithoutAgent(rt, cfg, requestId, id, sc.lookup, sc.socketOpens, sc.configSent);
    FinishNoLookup(c, RelayFrames(rt, sc.relay));
  }

  lemma FinishNoLookup(c: Connection, relayed: seq<Event>)
    requires forall e :: e in c.events ==> !e.DirectoryLookup?
    requires forall e :: e in relayed ==> IsRelayEvent(e)
    ensures forall e :: e in Finish(c, relayed) ==> !e.DirectoryLookup?
  {
  }
}

=== FILE: pyjson.dfy ===
/**
 * The slice of Python's data model that the voice relay and the REST
 * handlers rely on: values as `json.loads` produces them, truthiness
 * (`if x:`), `dict.get`, `str()` as used by f-string interpolation, and
 * calls that either return or raise.
 */
module PyJson {

  datatype Option<+T> = None | Some(value: T)

  /** The result of a Python call: its return value, or the `str()` of the exception it raised. */
  datatype Outcome<+T> = Ok(value: T) | Raised(error: string)

  /** A value as `json.loads` produces it; `JNull` is Python's `None`. */
  datatype Json =
    | JNull
    | JBool(b: bool)
    | JInt(i: int)
    | JFloat(f: real)
    | JStr(s: string)
    | JArr(items: seq<Json>)
    | JObj(fields: map<string, Json>)

  /** Python truthiness: `None`, `False`, zero and empty containers are false. */
  predicate Truthy(j: Json) {
    match j
    case JNull => false
    case JBool(b) => b
    case JInt(i) => i != 0
    case JFloat(f) => f != 0.0
    case JStr(s) => s != ""
    case JArr(a) => |a| > 0
    case JObj(m) => |m| > 0
  }

  /** The values `len()` accepts. */
  predicate Sized(j: Json) {
    j.JStr? || j.JArr? || j.JObj?
  }

  /** `d.get(key)`: the stored value, or `None` when the key is absent. */
  function Get(d: map<string, Json>, key: string): Json {
    if key in d then d[key] else JNull
  }

  /** `d.get(key, default)`. */
  function GetOr(d: map<string, Json>, key: string, default: Json): Json {
    if key in d then d[key] else default
  }

  /**
   * What `json.loads` does with a frame: return a value, raise
   * `JSONDecodeError`, or raise something else (`UnicodeDecodeError` for a
   * binary frame that is not valid text, `RecursionError` for nesting beyond
   * the interpreter's limit).
   */
  datatype Parse = Parsed(value: Json) | DecodeError | OtherError

  /**
   * The parts of the Python runtime this model leaves abstract: parsing JSON
   * text, serialising a value to JSON text, and the `str()` rendering of
   * floats, lists and dicts.
   */
  datatype Runtime = Runtime(
    loads: string -> Parse,
    dumps: Json -> string,
    reprOther: Json -> string)

  /** `json.loads` under a handler that catches every exception: the value, or `None`. */
  function Decoded(rt: Runtime, text: string): (v: Option<Json>)
    ensures v.Some? <==> rt.loads(text).Parsed?
    ensures v.Some? ==> v.value == rt.loads(text).value
  {
    match rt.loads(text)
    case Parsed(j) => Some(j)
    case _ => None
  }

  function DigitChar(d: nat): char
    requires d < 10
  {
    (48 + d) as char
  }

  predicate AllDigits(s: string) {
    forall k :: 0 <= k < |s| ==> '0' <= s[k] <= '9'
  }

  /** The decimal digits of `n`, as `str(n)` writes them. */
  function NatToDecimal(n: nat): (s: string)
    ensures |s| > 0
    ensures AllDigits(s)
    decreases n
  {
    if n < 10 then [DigitChar(n)] else NatToDecimal(n / 10) + [DigitChar(n % 10)]
  }

  /** The number a string of decimal digits denotes. */
  function DecimalValue(s: string): nat
    requires AllDigits(s)
    decreases |s|
  {
    if |s| == 0 then 0 else 10 * DecimalValue(s[..|s| - 1]) + (s[|s| - 1] as int - 48)
  }

  /** Reading back the digits `NatToDecimal` writes gives the number. */
  lemma {:induction false} DecimalRoundTrip(n: nat)
    ensures DecimalValue(NatToDecimal(n)) == n
    decreases n
  {
    if n >= 10 {
      var head := NatToDecimal(n / 10);
      var s := head + [DigitChar(n % 10)];
      assert s[..|s| - 1] == head;
      DecimalRoundTrip(n / 10);
    }
  }

  /** `str(j)`, the text an f-string interpolates for a value. */
  function Show(rt: Runtime, j: Json): string {
    match j
    case JNull => "None"
    case JBool(b) => if b then "True" else "False"
    case JInt(i) => if i < 0 then "-" + NatToDecimal(-i) else NatToDecimal(i)
    case JStr(s) => s
    case _ => rt.reprOther(j)
  }

  /** `str()` of an integer is its signed decimal numeral. */
  lemma ShowInt(rt: Runtime, i: int)
    ensures var t := Show(rt, JInt(i));
      if i < 0 then |t| > 1 && t[0] == '-' && AllDigits(t[1..]) && DecimalValue(t[1..]) == -i
      else AllDigits(t) && DecimalValue(t) == i
  {
    if i < 0 {
      var digits := NatToDecimal(-i);
      assert Show(rt, JInt(i)) == "-" + digits;
      DecimalRoundTrip(-i);
      assert ("-" + digits)[1..] == digits;
    } else {
      assert Show(rt, JInt(i)) == NatToDecimal(i);
      DecimalRoundTrip(i);
    }
  }
}

=== FILE: querystring.dfy ===
/**
 * Reading a URL's query back into its `key=value` parameters; the partner
 * against which the relay's URL construction is checked.
 */
module QueryString {

  /** `s` cut at every `sep`: the pieces between separators, in order. */
  function Split(s: string, sep: char): (parts: seq<string>)
    ensures |parts| > 0
    decreases |s|
  {
    if |s| == 0 then [""]
    else
      var rest := Split(s[1..], sep);
      if s[0] == sep then [""] + rest else [[s[0]] + rest[0]] + rest[1..]
  }

  /** The pieces written out with `sep` between neighbours. */
  function Join(parts: seq<string>, sep: char): string
    requires |parts| > 0
    decreases |parts|
  {
    if |parts| == 1 then parts[0] else parts[0] + [sep] + Join(parts[1..], sep)
  }

  lemma {:induction false} SplitPiece(p: string, sep: char, rest: string)
    requires sep !in p
    ensures Split(p + [sep] + rest, sep) == [p] + Split(rest, sep)
    decreases |p|
  {
    if |p| == 0 {
      assert p + [sep] + rest == [sep] + rest;
      assert ([sep] + rest)[1..] == rest;
    } else {
      SplitPiece(p[1..], sep, rest);
      assert (p + [sep] + rest)[1..] == p[1..] + [sep] + rest;
      assert [p[0]] + p[1..] == p;
    }
  }

  lemma {:induction false} SplitWhole(p: string, sep: char)
    requires sep !in p
    ensures Split(p, sep) == [p]
    decreases |p|
  {
    if |p| > 0 {
      SplitWhole(p[1..], sep);
      assert [p[0]] + p[1..] == p;
    }
  }

  /** Splitting undoes joining when no piece contains the separator. */
  lemma {:induction false} SplitJoin(parts: seq<string>, sep: char)
    requires |parts| > 0
    requires forall k :: 0 <= k < |parts| ==> sep !in parts[k]
    ensures Split(Join(parts, sep), sep) == parts
    decreases |parts|
  {
    if |parts| == 1 {
      SplitWhole(parts[0], sep);
    } else {
      SplitJoin(parts[1..], sep);
      SplitPiece(parts[0], sep, Join(parts[1..], sep));
      assert [parts[0]] + parts[1..] == parts;
    }
  }

  /** The text after the first `c`, or "" when there is none. */
  function After(s: string, c: char): string
    decreases |s|
  {
    if |s| == 0 then "" else if s[0] == c then s[1..] else After(s[1..], c)
  }

  /** The text before the first `c`, or all of `s` when there is none. */
  function Before(s: string, c: char): string
    decreases |s|
  {
    if |s| == 0 then "" else if s[0] == c then "" else [s[0]] + Before(s[1..], c)
  }

  lemma {:induction false} CutAtFirst(head: string, c: char, tail: string)
    requires c !in head
    ensures Before(head + [c] + tail, c) == head
    ensures After(head + [c] + tail, c) == tail
    decreases |head|
  {
    if |head| == 0 {
      assert head + [c] + tail == [c] + tail;
      assert ([c] + tail)[1..] == tail;
    } else {
      CutAtFirst(head[1..], c, tail);
      assert (head + [c] + tail)[1..] == head[1..] + [c] + tail;
      assert [head[0]] + head[1..] == head;
    }
  }

  /** A query field read as a parameter: split at its first `=`. */
  function Param(field: string): (string, string) {
    (Before(field, '='), After(field, '='))
  }

  function Field(p: (string, string)): string {
    p.0 + "=" + p.1
  }

  /** The parameters of a URL's query: the text after the first `?`, split at `&`. */
  function QueryParams(url: string): seq<(string, string)> {
    var fields := Split(After(url, '?'), '&');
    seq(|fields|, k requires 0 <= k < |fields| => Param(fields[k]))
  }

  /** The URL `head?k1=v1&k2=v2...` for a non-empty parameter list. */
  function QueryUrl(head: string, params: seq<(string, string)>): string
    requires |params| > 0
  {
    head + "?" + Join(seq(|params|, k requires 0 <= k < |params| => Field(params[k])), '&')
  }

  /** A parameter that can be written into a query and read back unchanged. */
  predicate Plain(p: (string, string)) {
    '=' !in p.0 && '&' !in p.0 && '&' !in p.1
  }

  lemma {:induction false} QueryRoundTrip(head: string, params: seq<(string, string)>)
    requires |params| > 0
    requires '?' !in head
    requires forall k :: 0 <= k < |params| ==> Plain(params[k])
    ensures QueryParams(QueryUrl(head, params)) == params
  {
    var fields := seq(|params|, k requires 0 <= k < |params| => Field(params[k]));
    forall k | 0 <= k < |fields|
      ensures '&' !in fields[k] && Param(fields[k]) == params[k]
    {
      CutAtFirst(params[k].0, '=', params[k].1);
      assert fields[k] == params[k].0 + ['='] + params[k].1;
    }
    assert QueryUrl(head, params) == head + ['?'] + Join(fields, '&');
    CutAtFirst(head, '?', Join(fields, '&'));
    SplitJoin(fields, '&');
  }
}

=== FILE: relay.dfy ===
/**
 * The per-frame logic of an open connection: reading the agent id from the
 * client's first frame, the function-call interceptor on the upstream side,
 * and the two forwarding directions run over one interleaving of frames.
 */
module Relay {
  import opened PyJson
  import opened Wire

  const DefaultArguments: string := "{}"
  const DefaultReason: string := "Conversation ended by agent"
  const EndedPrefix: string := "Conversation ended professionally. Reason: "
  const FunctionOutputType: string := "function_call_output"

  /** The inbound frame a client sends to select an agent. */
  function ClientSessionUpdate(agentId: Json): Json {
    JObj(map["type" := JStr(SessionUpdateType), "session" := JObj(map["agent_id" := agentId])])
  }

  /** A parsed first frame is a `session.update` whose `session` (default `{}`) is a dict. */
  predicate SelectsAgent(msg: Json) {
    && msg.JObj?
    && Get(msg.fields, "type") == JStr(SessionUpdateType)
    && GetOr(msg.fields, "session", JObj(map[])).JObj?
  }

  /** `session.agent_id` of a frame that `SelectsAgent`, `None` when absent. */
  function SelectedAgent(msg: Json): Json
    requires SelectsAgent(msg)
  {
    Get(GetOr(msg.fields, "session", JObj(map[])).fields, "agent_id")
  }

  /**
   * The agent id carried by the client's first frame. A receive error, an
   * empty or missing frame, unparseable text, a non-dict, another type or a
   * non-dict `session` all give `None`; nothing is raised.
   */
  function FirstFrameAgentId(rt: Runtime, first: Receive): (agentId: Json)
    ensures agentId != JNull ==>
              first.Frame? && first.text != "" && Decoded(rt, first.text).Some? && SelectsAgent(Decoded(rt, first.text).value)
    ensures (first.Frame? && first.text != "" && Decoded(rt, first.text).Some? && SelectsAgent(Decoded(rt, first.text).value))
              ==> agentId == SelectedAgent(Decoded(rt, first.text).value)
  {
    match first
    case Frame(text) =>
      if text == "" then JNull
      else (
        match Decoded(rt, text)
        case None => JNull
        case Some(msg) =>
          if !msg.JObj? then JNull
          else if Get(msg.fields, "type") != JStr(SessionUpdateType) then JNull
          else
            var session := GetOr(msg.fields, "session", JObj(map[]));
            if !session.JObj? then JNull else Get(session.fields, "agent_id"))
    case _ => JNull
  }

  /** The frame a client sends to pick an agent yields exactly that agent id. */
  lemma FirstFrameRoundTrip(rt: Runtime, text: string, agentId: Json)
    requires text != "" && rt.loads(text) == Parsed(ClientSessionUpdate(agentId))
    ensures FirstFrameAgentId(rt, Frame(text)) == agentId
  {
    assert SelectsAgent(ClientSessionUpdate(agentId));
  }

  /** An unparseable first frame is treated like no frame at all. */
  lemma UnparseableFirstFrame(rt: Runtime, text: string)
    requires !rt.loads(text).Parsed?
    ensures FirstFrameAgentId(rt, Frame(text)) == FirstFrameAgentId(rt, Closed) == JNull
  {
  }

  /** The function-call arguments as parsed JSON, `None` when `json.loads` would raise. */
  function ParsedArguments(rt: Runtime, msg: map<string, Json>): Option<Json> {
    match GetOr(msg, "arguments", JStr(DefaultArguments))
    case JStr(text) => Decoded(rt, text)
    case _ => None
  }

  /** The `output` payload reporting the end of the conversation. */
  function EndedPayload(rt: Runtime, reason: Json): Json {
    JObj(map["success" := JBool(true), "message" := JStr(EndedPrefix + Show(rt, reason))])
  }

  /** The reply that hands a function's output back upstream. */
  function FunctionOutput(rt: Runtime, callId: Json, reason: Json): Json {
    JObj(map[
      "type" := JStr(ItemCreateType),
      "item" := JObj(map[
        "type" := JStr(FunctionOutputType),
        "call_id" := callId,
        "output" := JStr(rt.dumps(EndedPayload(rt, reason)))])])
  }

  /** `call_id` of a reply frame. */
  function ReplyCallId(reply: Json): Json {
    if reply.JObj? && "item" in reply.fields && reply.fields["item"].JObj? then Get(reply.fields["item"].fields, "call_id")
    else JNull
  }

  /**
   * The reply to a completed function call, if one is sent. The function is
   * taken to be `end_conversation` without looking at its name; the reply
   * needs a truthy `item_id` and arguments that parse to a dict, and every
   * failure on the way is swallowed.
   */
  function HandleFunctionCall(rt: Runtime, msg: map<string, Json>): (reply: Option<Json>)
    ensures reply.Some? <==>
              Truthy(Get(msg, "item_id")) && ParsedArguments(rt, msg).Some? && ParsedArguments(rt, msg).value.JObj?
    ensures reply.Some? ==> HasType(reply.value, ItemCreateType) && ReplyCallId(reply.value) == Get(msg, "call_id")
    ensures reply.Some? ==>
              var args := ParsedArguments(rt, msg).value.fields;
              reply.value == FunctionOutput(rt, Get(msg, "call_id"), if "reason" in args then args["reason"] else JStr(DefaultReason))
  {
    var callId := Get(msg, "call_id");
    match ParsedArguments(rt, msg)
    case None => None
    case Some(arguments) =>
      if !Truthy(Get(msg, "item_id")) then None
      else if !arguments.JObj? then None
      else Some(FunctionOutput(rt, callId, GetOr(arguments.fields, "reason", JStr(DefaultReason))))
  }

  /**
   * The output message is the fixed prefix followed by the reason given,
   * or by the default reason when the arguments carry none.
   */
  lemma EndedMessage(rt: Runtime, args: map<string, Json>)
    ensures "reason" in args && args["reason"].JStr? ==>
              EndedPayload(rt, GetOr(args, "reason", JStr(DefaultReason))).fields["message"]
              == JStr(EndedPrefix + args["reason"].s)
    ensures "reason" !in args ==>
              EndedPayload(rt, GetOr(args, "reason", JStr(DefaultReason))).fields["message"]
              == JStr(EndedPrefix + DefaultReason)
  {
  }

  /** What one step of a forwarding loop did, and whether the loop goes on. */
  datatype Step = Step(events: seq<Event>, continues: bool)

  /** A reply sent upstream for an intercepted function call. */
  predicate IsReply(e: Event) {
    e.UpstreamSend? && HasType(e.frame, ItemCreateType)
  }

  /**
   * The upstream frame ends the upstream-to-client loop unforwarded: parsing
   * raised something other than a decode error, or the frame parsed to a
   * non-dict, whose `.get` raises outside the decode-error handler.
   */
  predicate StopsForwarding(rt: Runtime, text: string) {
    rt.loads(text).OtherError? || (rt.loads(text).Parsed? && !rt.loads(text).value.JObj?)
  }

  /** The frame is a function-call completion for which a reply is sent. */
  predicate Intercepted(rt: Runtime, text: string) {
    && rt.loads(text).Parsed? && rt.loads(text).value.JObj?
    && Get(rt.loads(text).value.fields, "type") == JStr(FunctionCallDoneType)
    && HandleFunctionCall(rt, rt.loads(text).value.fields).Some?
  }

  /** The reply an upstream frame draws: one for an intercepted call, else none. */
  function ReplyTo(rt: Runtime, text: string): seq<Event> {
    if Intercepted(rt, text) then [UpstreamSend(HandleFunctionCall(rt, rt.loads(text).value.fields).value)] else []
  }

  /**
   * One frame on the upstream-to-client side: intercept, then forward the
   * raw frame, unless the frame stops the loop first.
   */
  function UpstreamStep(rt: Runtime, text: string): (st: Step)
    ensures st.continues <==> !StopsForwarding(rt, text)
    ensures !st.continues ==> st.events == []
    ensures st.continues ==> st.events == ReplyTo(rt, text) + [ClientForward(text)]
    ensures Intercepted(rt, text) ==> IsReply(st.events[0]) && ReplyCallId(st.events[0].frame) == Get(rt.loads(text).value.fields, "call_id")
  {
    match rt.loads(text)
    case DecodeError => Step([ClientForward(text)], true)
    case OtherError => Step([], false)
    case Parsed(msg) =>
      if !msg.JObj? then Step([], false)
      else if Get(msg.fields, "type") == JStr(FunctionCallDoneType) then
        match HandleFunctionCall(rt, msg.fields)
        case Some(reply) => Step([UpstreamSend(reply), ClientForward(text)], true)
        case None => Step([ClientForward(text)], true)
      else Step([ClientForward(text)], true)
  }

  /** A frame that is not JSON is forwarded unchanged and draws no reply. */
  lemma NonJsonPassesThrough(rt: Runtime, text: string)
    requires rt.loads(text).DecodeError?
    ensures UpstreamStep(rt, text) == Step([ClientForward(text)], true)
  {
  }

  /**
   * A frame on which parsing raises anything but a decode error (a binary
   * frame that is not valid text, say) ends the upstream side unforwarded.
   */
  lemma ParseFailureStopsForwarding(rt: Runtime, text: string)
    requires rt.loads(text).OtherError?
    ensures UpstreamStep(rt, text) == Step([], false)
  {
  }

  /**
   * The next thing either forwarding direction does: a receive, or a frame
   * received whose forwarding send raised, which ends that direction.
   */
  datatype RelayInput =
    | FromClient(r: Receive)
    | FromUpstream(r: Receive)
    | ClientFrameLost(text: string)
    | UpstreamFrameLost(text: string)

  /** The events the forwarding directions produce. */
  predicate IsRelayEvent(e: Event) {
    e.UpstreamForward? || e.ClientForward? || IsReply(e)
  }

  /**
   * Both forwarding directions over one interleaving of their receives, until
   * the first direction ends; the other is then cancelled while waiting. The
   * client side forwards every frame verbatim (the empty text too) and ends
   * on `None`, an error or a failed send; the upstream side ends on close,
   * error or a failed send to the client (after any reply went upstream), or
   * on a frame that `StopsForwarding`.
   */
  function RelayFrames(rt: Runtime, schedule: seq<RelayInput>): (events: seq<Event>)
    ensures forall e :: e in events ==> IsRelayEvent(e)
    decreases |schedule|
  {
    if |schedule| == 0 then []
    else
      match schedule[0]
      case FromClient(Frame(text)) => [UpstreamForward(text)] + RelayFrames(rt, schedule[1..])
      case FromClient(_) => []
      case ClientFrameLost(_) => []
      case FromUpstream(Frame(text)) =>
        var st := UpstreamStep(rt, text);
        if st.continues then st.events + RelayFrames(rt, schedule[1..]) else []
      case FromUpstream(_) => []
      case UpstreamFrameLost(text) =>
        if StopsForwarding(rt, text) then [] else ReplyTo(rt, text)
  }

  /** The text the client sent in one relay input, if any. */
  function SentByClient(input: RelayInput): seq<string> {
    match input
    case FromClient(Frame(text)) => [text]
    case ClientFrameLost(text) => [text]
    case _ => []
  }

  /** The text the upstream sent in one relay input, if any. */
  function SentByUpstream(input: RelayInput): seq<string> {
    match input
    case FromUpstream(Frame(text)) => [text]
    case UpstreamFrameLost(text) => [text]
    case _ => []
  }

  /** The texts the client sends, in schedule order. */
  function ClientTexts(schedule: seq<RelayInput>): seq<string> {
    Collect(schedule, SentByClient)
  }

  /** The texts the upstream sends, in schedule order. */
  function UpstreamTexts(schedule: seq<RelayInput>): seq<string> {
    Collect(schedule, SentByUpstream)
  }

  /** The raw text an event forwards to the client, if any. */
  function ToClientText(e: Event): seq<string> {
    if e.ClientForward? then [e.text] else []
  }

  /** The raw text an event forwards upstream, if any. */
  function ToUpstreamText(e: Event): seq<string> {
    if e.UpstreamForward? then [e.text] else []
  }

  /** The raw texts an event sequence forwards to the client. */
  function Delivered(events: seq<Event>): seq<string> {
    Collect(events, ToClientText)
  }

  /** The raw texts an event sequence forwards upstream. */
  function Passed(events: seq<Event>): seq<string> {
    Collect(events, ToUpstreamText)
  }

  /** The relay input is a frame after which its direction goes on. */
  predicate Continues(rt: Runtime, input: RelayInput) {
    match input
    case FromClient(r) => r.Frame?
    case FromUpstream(r) => r.Frame? && !StopsForwarding(rt, r.text)
    case _ => false
  }

  /** Every relay input is a frame after which its direction goes on. */
  predicate Uninterrupted(rt: Runtime, schedule: seq<RelayInput>) {
    forall k :: 0 <= k < |schedule| ==> Continues(rt, schedule[k])
  }

  /** A reply forwards no text in either direction. */
  lemma {:induction false} ReplyForwardsNothing(rt: Runtime, text: string)
    ensures Delivered(ReplyTo(rt, text)) == [] && Passed(ReplyTo(rt, text)) == []
  {
    var reply := ReplyTo(rt, text);
    if |reply| > 0 {
      assert reply[0].UpstreamSend? && reply[1..] == [];
      assert Delivered(reply) == ToClientText(reply[0]) + Delivered(reply[1..]);
      assert Passed(reply) == ToUpstreamText(reply[0]) + Passed(reply[1..]);
    }
  }

  /** A forwarded upstream frame adds exactly its text on the client side. */
  lemma {:induction false} StepForwards(rt: Runtime, text: string, rest: seq<Event>)
    requires !StopsForwarding(rt, text)
    ensures Delivered(UpstreamStep(rt, text).events + rest) == [text] + Delivered(rest)
    ensures Passed(UpstreamStep(rt, text).events + rest) == Passed(rest)
  {
    var reply := ReplyTo(rt, text);
    var fwd := [ClientForward(text)];
    ReplyForwardsNothing(rt, text);
    CollectConcat(reply + fwd, rest, ToClientText);
    CollectConcat(reply + fwd, rest, ToUpstreamText);
    CollectConcat(reply, fwd, ToClientText);
    CollectConcat(reply, fwd, ToUpstreamText);
    assert fwd[1..] == [];
  }

  lemma {:induction false} TextsUnfold(schedule: seq<RelayInput>)
    requires |schedule| > 0
    ensures UpstreamTexts(schedule) == SentByUpstream(schedule[0]) + UpstreamTexts(schedule[1..])
    ensures ClientTexts(schedule) == SentByClient(schedule[0]) + ClientTexts(schedule[1..])
  {
  }

  lemma RelayUnfold(rt: Runtime, schedule: seq<RelayInput>)
    requires |schedule| > 0
    ensures var rest := RelayFrames(rt, schedule[1..]);
            var up := SentByUpstream(schedule[0]);
            var down := SentByClient(schedule[0]);
      && UpstreamTexts(schedule) == up + UpstreamTexts(schedule[1..])
      && ClientTexts(schedule) == down + ClientTexts(schedule[1..])
      && (Continues(rt, schedule[0]) ==>
            Delivered(RelayFrames(rt, schedule)) == up + Delivered(rest)
            && Passed(RelayFrames(rt, schedule)) == down + Passed(rest))
      && (!Continues(rt, schedule[0]) ==>
            Delivered(RelayFrames(rt, schedule)) == [] && Passed(RelayFrames(rt, schedule)) == [])
  {
    TextsUnfold(schedule);
    var rest := RelayFrames(rt, schedule[1..]);
    match schedule[0]
    case FromClient(Frame(text)) =>
      var fwd := [UpstreamForward(text)];
      assert fwd[1..] == [];
      CollectConcat(fwd, rest, ToClientText);
      CollectConcat(fwd, rest, ToUpstreamText);
    case FromClient(_) =>
    case ClientFrameLost(_) =>
    case FromUpstream(Frame(text)) =>
      if !StopsForwarding(rt, text) {
        StepForwards(rt, text, rest);
      }
    case FromUpstream(_) =>
    case UpstreamFrameLost(text) =>
      ReplyForwardsNothing(rt, text);
  }

  /**
   * A forwarding send that raises ends its direction and the relay: after a
   * lost client frame nothing more happens; a lost upstream frame still draws
   * its reply, if any, but is itself not forwarded.
   */
  lemma LostFrameEndsRelay(rt: Runtime, text: string, post: seq<RelayInput>)
    ensures RelayFrames(rt, [ClientFrameLost(text)] + post) == []
    ensures RelayFrames(rt, [UpstreamFrameLost(text)] + post) == (if StopsForwarding(rt, text) then [] else ReplyTo(rt, text))
  {
    assert ([ClientFrameLost(text)] + post)[0] == ClientFrameLost(text);
    assert ([UpstreamFrameLost(text)] + post)[0] == UpstreamFrameLost(text);
  }

  /**
   * The relay stops at the first direction that ends: nothing after that
   * input has any effect, the client has received exactly the upstream's
   * texts before it, and the upstream exactly the client's.
   */
  lemma {:induction false} RelayEndsAtFirstEnd(rt: Runtime, pre: seq<RelayInput>, x: RelayInput, post: seq<RelayInput>)
    requires Uninterrupted(rt, pre) && !Continues(rt, x)
    ensures RelayFrames(rt, pre + [x] + post) == RelayFrames(rt, pre + [x])
    ensures Delivered(RelayFrames(rt, pre + [x] + post)) == UpstreamTexts(pre)
    ensures Passed(RelayFrames(rt, pre + [x] + post)) == ClientTexts(pre)
    decreases |pre|
  {
    var s := pre + [x] + post;
    var t := pre + [x];
    if |pre| == 0 {
      assert s == [x] + post && t == [x] + [];
      assert s[0] == x && t[0] == x;
      RelayUnfold(rt, s);
    } else {
      assert s[0] == pre[0] && t[0] == pre[0];
      assert s[1..] == pre[1..] + [x] + post;
      assert t[1..] == pre[1..] + [x];
      assert Continues(rt, pre[0]);
      assert Uninterrupted(rt, pre[1..]) by {
        forall k | 0 <= k < |pre[1..]|
          ensures Continues(rt, pre[1..][k])
        {
          assert pre[1..][k] == pre[k + 1];
        }
      }
      RelayEndsAtFirstEnd(rt, pre[1..], x, post);
      RelayUnfold(rt, s);
      TextsUnfold(pre);
      SameHead(rt, s, t);
    }
  }

  /** Two schedules with the same first input and the same relay afterwards relay the same. */
  lemma SameHead(rt: Runtime, s: seq<RelayInput>, t: seq<RelayInput>)
    requires |s| > 0 && |t| > 0 && s[0] == t[0]
    requires RelayFrames(rt, s[1..]) == RelayFrames(rt, t[1..])
    ensures RelayFrames(rt, s) == RelayFrames(rt, t)
  {
  }

  /**
   * Wire transparency: what reaches the client is a prefix of what the
   * upstream sent, and what reaches the upstream a prefix of what the client
   * sent; while no direction ends, both are everything, in order.
   */
  lemma {:induction false} RelayIsTransparent(rt: Runtime, schedule: seq<RelayInput>)
    ensures Delivered(RelayFrames(rt, schedule)) <= UpstreamTexts(schedule)
    ensures Passed(RelayFrames(rt, schedule)) <= ClientTexts(schedule)
    ensures Uninterrupted(rt, schedule) ==>
              Delivered(RelayFrames(rt, schedule)) == UpstreamTexts(schedule)
              && Passed(RelayFrames(rt, schedule)) == ClientTexts(schedule)
    decreases |schedule|
  {
    if |schedule| > 0 {
      var rest := schedule[1..];
      RelayIsTransparent(rt, rest);
      RelayUnfold(rt, schedule);
      if Uninterrupted(rt, schedule) {
        forall k | 0 <= k < |rest|
          ensures Continues(rt, rest[k])
        {
          assert rest[k] == schedule[k + 1];
        }
        assert Continues(rt, schedule[0]);
      }
    }
  }
}

=== FILE: rest_api.dfy ===
/**
 * The decisions of the REST handlers: from a request body and what the
 * collaborators (scenario directory, agent manager, analyzers) answer, to a
 * status code, a JSON body and the collaborator calls made on the way.
 */
module RestApi {
  import opened PyJson

  /**
   * What a handler produces: a response, or `Unhandled` when an exception
   * escapes the handler and the framework answers with its generic error.
   */
  datatype Response = Response(status: int, body: Json) | Unhandled

  /** A call a handler makes on a collaborator, with its arguments. */
  datatype Call =
    | ScenarioLookup(scenarioId: Json)
    | AgentCreation(scenarioId: Json, scenario: Json)
    | AgentDeletion(agentId: string)
    | ConversationAnalysis(scenarioId: Json, transcript: Json)
    | PronunciationAssessment(audio: Json, transcript: Json)

  datatype Handled = Handled(response: Response, calls: seq<Call>)

  const WsEndpoint: string := "/ws/voice"
  const ScenarioNotFound: string := "Scenario not found"
  const ScenarioIdRequired: string := "scenario_id is required"
  const AnalyzeFieldsRequired: string := "scenario_id and transcript are required"

  /** `jsonify({"error": message})` with a status. */
  function ErrorResponse(status: int, message: string): Response {
    Response(status, JObj(map["error" := JStr(message)]))
  }

  /** The response is an error response carrying a message. */
  predicate IsErrorResponse(r: Response) {
    r.Response? && r.status != 200 && r.body.JObj? && r.body.fields.Keys == {"error"} && r.body.fields["error"].JStr?
  }

  /** The message of an error response. */
  function ErrorMessage(r: Response): string
    requires IsErrorResponse(r)
  {
    r.body.fields["error"].s
  }

  /** The client configuration: the proxy is on, at the websocket endpoint. */
  function GetConfig(): (r: Response)
    ensures r.Response? && r.status == 200 && r.body.JObj?
    ensures r.body.fields.Keys == {"proxy_enabled", "ws_endpoint"}
    ensures Get(r.body.fields, "proxy_enabled") == JBool(true)
    ensures Get(r.body.fields, "ws_endpoint") == JStr(WsEndpoint)
  {
    Response(200, JObj(map["proxy_enabled" := JBool(true), "ws_endpoint" := JStr(WsEndpoint)]))
  }

  /** The scenario directory returned a scenario (a truthy value). */
  predicate Found(lookup: Outcome<Json>) {
    lookup.Ok? && Truthy(lookup.value)
  }

  /**
   * One scenario by the id taken from the path; `scenarios` is what the
   * scenario directory returns (`JNull` for none) or raises for an id. An
   * exception escapes the handler.
   */
  function GetScenario(scenarioId: string, scenarios: Json -> Outcome<Json>): (h: Handled)
    ensures h.calls == [ScenarioLookup(JStr(scenarioId))]
    ensures h.response.Unhandled? <==> scenarios(JStr(scenarioId)).Raised?
    ensures h.response.Response? && h.response.status == 200 <==> Found(scenarios(JStr(scenarioId)))
    ensures h.response.Response? && h.response.status == 200 ==> h.response.body == scenarios(JStr(scenarioId)).value
    ensures h.response.Response? && h.response.status != 200 ==>
      IsErrorResponse(h.response) && h.response.status == 404 && ErrorMessage(h.response) == ScenarioNotFound
  {
    var calls := [ScenarioLookup(JStr(scenarioId))];
    match scenarios(JStr(scenarioId))
    case Raised(_) => Handled(Unhandled, calls)
    case Ok(scenario) =>
      if Truthy(scenario) then Handled(Response(200, scenario), calls)
      else Handled(ErrorResponse(404, ScenarioNotFound), calls)
  }

  /**
   * Create an agent for the scenario the body names. `scenarios` is what the
   * scenario directory returns or raises for an id, `create` what the agent
   * manager returns or raises for a scenario id and scenario. A body that is
   * not a JSON object has no `.get`, and the directory lookup is not guarded,
   * so either makes the handler raise; only the creation is guarded.
   */
  function CreateAgent(body: Json, scenarios: Json -> Outcome<Json>, create: (Json, Json) -> Outcome<Json>): (h: Handled)
    ensures h.response.Unhandled? <==>
      !body.JObj? || (Truthy(Get(body.fields, "scenario_id")) && scenarios(Get(body.fields, "scenario_id")).Raised?)
    ensures !body.JObj? ==> h.calls == []
    ensures body.JObj? ==>
      var sid := Get(body.fields, "scenario_id");
      && (h.response.Response? && h.response.status == 400 <==> !Truthy(sid))
      && (h.response.Response? && h.response.status == 404 <==> Truthy(sid) && scenarios(sid).Ok? && !Found(scenarios(sid)))
      && (h.response.Response? && h.response.status == 200 <==>
            Truthy(sid) && Found(scenarios(sid)) && create(sid, scenarios(sid).value).Ok?)
      && (h.response.Response? && h.response.status == 500 <==>
            Truthy(sid) && Found(scenarios(sid)) && create(sid, scenarios(sid).value).Raised?)
    ensures h.response.Response? && h.response.status == 200 ==>
      var sid := Get(body.fields, "scenario_id");
      && h.response.body.JObj? && h.response.body.fields.Keys == {"agent_id", "scenario_id"}
      && h.response.body.fields["agent_id"] == create(sid, scenarios(sid).value).value
      && h.response.body.fields["scenario_id"] == sid
    ensures h.response.Response? && h.response.status != 200 ==> IsErrorResponse(h.response)
    ensures h.response.Response? && h.response.status == 400 ==> ErrorMessage(h.response) == ScenarioIdRequired
    ensures h.response.Response? && h.response.status == 404 ==> ErrorMessage(h.response) == ScenarioNotFound
    ensures h.response.Response? && h.response.status == 500 ==>
      var sid := Get(body.fields, "scenario_id");
      ErrorMessage(h.response) == create(sid, scenarios(sid).value).error
  {
    if !body.JObj? then Handled(Unhandled, [])
    else
      var sid := Get(body.fields, "scenario_id");
      if !Truthy(sid) then Handled(ErrorResponse(400, ScenarioIdRequired), [])
      else
        match scenarios(sid)
        case Raised(_) => Handled(Unhandled, [ScenarioLookup(sid)])
        case Ok(scenario) =>
          if !Truthy(scenario) then Handled(ErrorResponse(404, ScenarioNotFound), [ScenarioLookup(sid)])
          else
            var calls := [ScenarioLookup(sid), AgentCreation(sid, scenario)];
            match create(sid, scenario)
            case Ok(agentId) => Handled(Response(200, JObj(map["agent_id" := agentId, "scenario_id" := sid])), calls)
            case Raised(e) => Handled(ErrorResponse(500, e), calls)
  }

  /**
   * A missing or empty `scenario_id` is refused before any collaborator is
   * called; an unknown scenario is refused, and a raising directory escapes,
   * after the lookup alone.
   */
  lemma CreateAgentRefusals(body: Json, scenarios: Json -> Outcome<Json>, create: (Json, Json) -> Outcome<Json>)
    requires body.JObj?
    ensures var sid := Get(body.fields, "scenario_id");
            var h := CreateAgent(body, scenarios, create);
      && (!Truthy(sid) ==> h.calls == [])
      && (Truthy(sid) && !Found(scenarios(sid)) ==> h.calls == [ScenarioLookup(sid)])
  {
  }

  /**
   * An agent is only ever created for a scenario the directory just
   * returned, with that scenario, and never twice.
   */
  lemma {:induction false} CreationFollowsLookup(body: Json, scenarios: Json -> Outcome<Json>, create: (Json, Json) -> Outcome<Json>)
    ensures var calls := CreateAgent(body, scenarios, create).calls;
      forall k :: 0 <= k < |calls| && calls[k].AgentCreation? ==>
        && k == |calls| - 1 && k > 0
        && calls[k - 1] == ScenarioLookup(calls[k].scenarioId)
        && Truthy(calls[k].scenarioId)
        && Found(scenarios(calls[k].scenarioId)) && calls[k].scenario == scenarios(calls[k].scenarioId).value
  {
    var calls := CreateAgent(body, scenarios, create).calls;
    if |calls| == 2 {
      assert !calls[0].AgentCreation?;
    }
  }

  /** Delete an agent by the id taken from the path; `delete` is what the agent manager does. */
  function DeleteAgent(agentId: string, delete: string -> Outcome<Json>): (h: Handled)
    ensures h.calls == [AgentDeletion(agentId)]
    ensures h.response.Response?
    ensures h.response.status == 200 <==> delete(agentId).Ok?
    ensures h.response.status == 200 ==> h.response.body == JObj(map["success" := JBool(true)])
    ensures h.response.status != 200 ==>
      && IsErrorResponse(h.response) && h.response.status == 500
      && ErrorMessage(h.response) == delete(agentId).error
  {
    var calls := [AgentDeletion(agentId)];
    match delete(agentId)
    case Ok(_) => Handled(Response(200, JObj(map["success" := JBool(true)])), calls)
    case Raised(e) => Handled(ErrorResponse(500, e), calls)
  }

  /** An assessment that raised is reported as `null`. */
  function Reported(result: Outcome<Json>): (j: Json)
    ensures result.Ok? ==> j == result.value
    ensures result.Raised? ==> j == JNull
  {
    match result
    case Ok(v) => v
    case Raised(_) => JNull
  }

  /**
   * `len(transcript or '')` in the request log: a truthy transcript without
   * a length raises `TypeError`, before any validation.
   */
  predicate LogRaises(transcript: Json) {
    Truthy(transcript) && !Sized(transcript)
  }

  /**
   * Assess a conversation. `analyze` is what the conversation analyzer
   * returns or raises for (scenario id, transcript), `assess` what the
   * pronunciation assessor does for (audio, transcript); both run and
   * their exceptions are captured.
   */
  function AnalyzeConversation(body: Json, analyze: (Json, Json) -> Outcome<Json>, assess: (Json, Json) -> Outcome<Json>): (h: Handled)
    ensures h.response.Unhandled? <==> !body.JObj? || LogRaises(Get(body.fields, "transcript"))
    ensures h.response.Unhandled? ==> h.calls == []
    ensures h.response.Response? ==>
      var sid := Get(body.fields, "scenario_id");
      var transcript := Get(body.fields, "transcript");
      && (h.response.status == 400 <==> !Truthy(sid) || !Truthy(transcript))
      && (h.response.status == 400 ==> IsErrorResponse(h.response) && ErrorMessage(h.response) == AnalyzeFieldsRequired && h.calls == [])
      && (h.response.status != 400 ==> h.response.status == 200)
    ensures h.response.Response? && h.response.status == 200 ==>
      var sid := Get(body.fields, "scenario_id");
      var transcript := Get(body.fields, "transcript");
      var audio := GetOr(body.fields, "audio_data", JArr([]));
      && h.calls == [ConversationAnalysis(sid, transcript), PronunciationAssessment(audio, transcript)]
      && h.response.body.JObj? && h.response.body.fields.Keys == {"ai_assessment", "pronunciation_assessment"}
      && (analyze(sid, transcript).Ok? ==> h.response.body.fields["ai_assessment"] == analyze(sid, transcript).value)
      && (analyze(sid, transcript).Raised? ==> h.response.body.fields["ai_assessment"] == JNull)
      && (assess(audio, transcript).Ok? ==> h.response.body.fields["pronunciation_assessment"] == assess(audio, transcript).value)
      && (assess(audio, transcript).Raised? ==> h.response.body.fields["pronunciation_assessment"] == JNull)
  {
    if !body.JObj? then Handled(Unhandled, [])
    else
      var sid := Get(body.fields, "scenario_id");
      var transcript := Get(body.fields, "transcript");
      var audio := GetOr(body.fields, "audio_data", JArr([]));
      if LogRaises(transcript) then Handled(Unhandled, [])
      else if !Truthy(sid) || !Truthy(transcript) then Handled(ErrorResponse(400, AnalyzeFieldsRequired), [])
      else
        var calls := [ConversationAnalysis(sid, transcript), PronunciationAssessment(audio, transcript)];
        var body := JObj(map["ai_assessment" := Reported(analyze(sid, transcript)),
                             "pronunciation_assessment" := Reported(assess(audio, transcript))]);
        Handled(Response(200, body), calls)
  }

  /**
   * One failing assessment does not affect the other: each field of the
   * result depends only on its own analyzer.
   */
  lemma AssessmentsIndependent(body: Json, analyze: (Json, Json) -> Outcome<Json>, assess: (Json, Json) -> Outcome<Json>,
                               analyze': (Json, Json) -> Outcome<Json>, assess': (Json, Json) -> Outcome<Json>)
    requires CreatesReport(body)
    ensures var r := AnalyzeConversation(body, analyze, assess').response;
            var r' := AnalyzeConversation(body, analyze, assess).response;
      r.status == r'.status == 200 && r.body.fields["ai_assessment"] == r'.body.fields["ai_assessment"]
    ensures var r := AnalyzeConversation(body, analyze', assess).response;
            var r' := AnalyzeConversation(body, analyze, assess).response;
      r.status == r'.status == 200 && r.body.fields["pronunciation_assessment"] == r'.body.fields["pronunciation_assessment"]
  {
  }

  /** The body passes validation: an object with a truthy scenario id and a truthy transcript with a length. */
  predicate CreatesReport(body: Json) {
    body.JObj? && Truthy(Get(body.fields, "scenario_id")) && Truthy(Get(body.fields, "transcript"))
    && Sized(Get(body.fields, "transcript"))
  }

  /**
   * With both required fields present the handler always answers 200,
   * whether each analyzer returns or raises while it runs.
   */
  lemma AnalyzeAlwaysReports(body: Json, analyze: (Json, Json) -> Outcome<Json>, assess: (Json, Json) -> Outcome<Json>)
    ensures var r := AnalyzeConversation(body, analyze, assess).response;
      (r.Response? && r.status == 200) <==> CreatesReport(body)
  {
  }

  /**
   * A truthy transcript without a length (a non-zero number, `true`) makes
   * the handler raise even when `scenario_id` is missing, so such a request
   * is never answered with the 400 refusal.
   */
  lemma LengthlessTranscriptRaises(fields: map<string, Json>, analyze: (Json, Json) -> Outcome<Json>, assess: (Json, Json) -> Outcome<Json>)
    requires "transcript" in fields && LogRaises(fields["transcript"])
    ensures AnalyzeConversation(JObj(fields), analyze, assess).response.Unhandled?
  {
  }

  /** Every refusal any handler sends is a JSON object whose only field is the `error` message. */
  lemma RefusalsCarryMessage(body: Json, scenarioId: string, agentId: string, scenarios: Json -> Outcome<Json>,
                             create: (Json, Json) -> Outcome<Json>, delete: string -> Outcome<Json>,
                             analyze: (Json, Json) -> Outcome<Json>, assess: (Json, Json) -> Outcome<Json>)
    ensures forall r :: (r in [GetScenario(scenarioId, scenarios).response, CreateAgent(body, scenarios, create).response,
                               DeleteAgent(agentId, delete).response, AnalyzeConversation(body, analyze, assess).response]
                         && r.Response? && r.status != 200) ==> IsErrorResponse(r)
  {
  }
}

=== FILE: session_config.dfy ===
/**
 * The `session.update` message sent upstream once per connection: fixed
 * protocol defaults, plus a model/instructions/temperature/token overlay
 * taken from the agent record when that agent is a local one.
 */
module SessionConfig {
  import opened PyJson
  import opened Settings
  import opened Wire

  const EndConversationFunction: string := "end_conversation"

  /** The single tool the session declares. */
  const EndConversationTool: Json := JObj(map[
    "type" := JStr("function"),
    "name" := JStr(EndConversationFunction),
    "description" := JStr("End the conversation when it becomes unprofessional, inappropriate, or abusive. Use this to professionally conclude the interaction."),
    "parameters" := JObj(map[
      "type" := JStr("object"),
      "properties" := JObj(map[
        "reason" := JObj(map[
          "type" := JStr("string"),
          "description" := JStr("Brief professional reason for ending the conversation")])]),
      "required" := JArr([JStr("reason")])])])

  /** The session fields every configuration message starts from. */
  const DefaultSession: map<string, Json> := map[
    "modalities" := JArr([JStr("text"), JStr("audio")]),
    "turn_detection" := JObj(map["type" := JStr("azure_semantic_vad")]),
    "input_audio_noise_reduction" := JObj(map["type" := JStr("azure_deep_noise_suppression")]),
    "input_audio_echo_cancellation" := JObj(map["type" := JStr("server_echo_cancellation")]),
    "avatar" := JObj(map["character" := JStr("lisa"), "style" := JStr("casual-sitting")]),
    "tools" := JArr([EndConversationTool]),
    "tool_choice" := JStr("auto")]

  /** The session keys a local agent adds. */
  const OverlayKeys: set<string> := {"model", "instructions", "temperature", "max_response_output_tokens"}

  /** The agent-record keys the overlay reads with `[...]`, in the order it reads them. */
  const RequiredRecordKeys: seq<string> := ["instructions", "temperature", "max_tokens"]

  function SessionMessage(session: map<string, Json>): Json {
    JObj(map["type" := JStr(SessionUpdateType), "session" := JObj(session)])
  }

  lemma MessageShape(session: map<string, Json>)
    ensures SessionOf(SessionMessage(session)) == session
    ensures HasType(SessionMessage(session), SessionUpdateType)
    ensures SessionMessage(session).fields.Keys == {"type", "session"}
  {
  }

  lemma DefaultKeys()
    ensures DefaultSession.Keys == {"modalities", "turn_detection", "input_audio_noise_reduction",
                                    "input_audio_echo_cancellation", "avatar", "tools", "tool_choice"}
    ensures DefaultSession.Keys !! OverlayKeys
  {
  }

  function BuildSessionConfig(): Json {
    SessionMessage(DefaultSession)
  }

  /** The session fields of a configuration message, or none. */
  function SessionOf(msg: Json): map<string, Json> {
    if msg.JObj? && "session" in msg.fields && msg.fields["session"].JObj? then msg.fields["session"].fields
    else map[]
  }

  /** `str()` of the `KeyError` a missing dict key raises. */
  function KeyErrorText(key: string): string {
    "'" + key + "'"
  }

  predicate HasOverlaySources(rec: AgentRecord) {
    "instructions" in rec && "temperature" in rec && "max_tokens" in rec
  }

  /**
   * The overlay for a local agent, applied to session fields. Reading a
   * missing `instructions`, `temperature` or `max_tokens` raises `KeyError`.
   */
  function AddLocalAgentConfig(cfg: Config, session: map<string, Json>, rec: AgentRecord): (r: Outcome<map<string, Json>>)
    ensures r.Ok? <==> HasOverlaySources(rec)
    ensures r.Ok? ==> r.value.Keys == session.Keys + OverlayKeys
    ensures r.Ok? ==> forall k :: k in session && k !in OverlayKeys ==> r.value[k] == session[k]
    ensures r.Ok? ==>
      && r.value["model"] == (if "model" in rec then rec["model"] else JStr(cfg.modelDeploymentName))
      && r.value["instructions"] == rec["instructions"]
      && r.value["temperature"] == rec["temperature"]
      && r.value["max_response_output_tokens"] == rec["max_tokens"]
    ensures r.Raised? ==> exists k :: 0 <= k < |RequiredRecordKeys| && RequiredRecordKeys[k] !in rec
                                      && r.error == KeyErrorText(RequiredRecordKeys[k])
  {
    if "instructions" !in rec then
      assert RequiredRecordKeys[0] == "instructions";
      Raised(KeyErrorText("instructions"))
    else if "temperature" !in rec then
      assert RequiredRecordKeys[1] == "temperature";
      Raised(KeyErrorText("temperature"))
    else if "max_tokens" !in rec then
      assert RequiredRecordKeys[2] == "max_tokens";
      Raised(KeyErrorText("max_tokens"))
    else
      Ok(session["model" := GetOr(rec, "model", JStr(cfg.modelDeploymentName))]
                ["instructions" := rec["instructions"]]
                ["temperature" := rec["temperature"]]
                ["max_response_output_tokens" := rec["max_tokens"]])
  }

  /** The configuration message can be built: no local agent, or one with every key the overlay reads. */
  predicate Buildable(agentConfig: Option<AgentRecord>) {
    LocalAgent(agentConfig) ==> HasOverlaySources(agentConfig.value)
  }

  /** The defaults are all present and unchanged. */
  predicate KeepsDefaults(session: map<string, Json>) {
    forall k :: k in DefaultSession ==> k in session && session[k] == DefaultSession[k]
  }

  /** The configuration message for a connection whose directory lookup gave `agentConfig`. */
  function InitialConfig(cfg: Config, agentConfig: Option<AgentRecord>): (r: Outcome<Json>)
    ensures r.Ok? ==> HasType(r.value, SessionUpdateType) && r.value.fields.Keys == {"type", "session"}
    ensures r.Ok? ==> KeepsDefaults(SessionOf(r.value))
    ensures r.Ok? ==> SessionOf(r.value).Keys == DefaultSession.Keys + (if LocalAgent(agentConfig) then OverlayKeys else {})
    ensures r.Ok? <==> Buildable(agentConfig)
  {
    var msg := BuildSessionConfig();
    DefaultKeys();
    MessageShape(DefaultSession);
    if LocalAgent(agentConfig) then
      match AddLocalAgentConfig(cfg, DefaultSession, agentConfig.value)
      case Ok(session) => MessageShape(session); Ok(SessionMessage(session))
      case Raised(e) => Raised(e)
    else Ok(msg)
  }

  /**
   * The session declares exactly one tool, `end_conversation`, takes the
   * tool choice `auto`, and starts from the fixed turn-detection, noise,
   * echo and avatar settings.
   */
  lemma SessionDefaults(cfg: Config, agentConfig: Option<AgentRecord>)
    requires Buildable(agentConfig)
    ensures var s := SessionOf(InitialConfig(cfg, agentConfig).value);
      && s["tools"].JArr? && |s["tools"].items| == 1
      && Get(s["tools"].items[0].fields, "name") == JStr("end_conversation")
      && s["tool_choice"] == JStr("auto")
      && s["modalities"] == JArr([JStr("text"), JStr("audio")])
      && s["turn_detection"] == JObj(map["type" := JStr("azure_semantic_vad")])
      && s["avatar"] == JObj(map["character" := JStr("lisa"), "style" := JStr("casual-sitting")])
  {
    DefaultValues();
    ToolName();
  }

  lemma DefaultValues()
    ensures "tools" in DefaultSession && DefaultSession["tools"] == JArr([EndConversationTool])
    ensures "tool_choice" in DefaultSession && DefaultSession["tool_choice"] == JStr("auto")
    ensures "modalities" in DefaultSession && DefaultSession["modalities"] == JArr([JStr("text"), JStr("audio")])
    ensures "turn_detection" in DefaultSession && DefaultSession["turn_detection"] == JObj(map["type" := JStr("azure_semantic_vad")])
    ensures "avatar" in DefaultSession
         && DefaultSession["avatar"] == JObj(map["character" := JStr("lisa"), "style" := JStr("casual-sitting")])
  {
  }

  lemma ToolName()
    ensures EndConversationTool.JObj? && Get(EndConversationTool.fields, "name") == JStr("end_conversation")
  {
  }

  /**
   * A local agent's overlay carries its instructions, temperature and
   * token limit; without a resolved local agent none of the overlay keys
   * appear.
   */
  lemma OverlayIffLocalAgent(cfg: Config, agentConfig: Option<AgentRecord>)
    requires Buildable(agentConfig)
    ensures var s := SessionOf(InitialConfig(cfg, agentConfig).value);
      LocalAgent(agentConfig) ==>
        && s["instructions"] == agentConfig.value["instructions"]
        && s["temperature"] == agentConfig.value["temperature"]
        && s["max_response_output_tokens"] == agentConfig.value["max_tokens"]
    ensures var s := SessionOf(InitialConfig(cfg, agentConfig).value);
      !LocalAgent(agentConfig) ==> forall k :: k in OverlayKeys ==> k !in s
  {
    DefaultKeys();
    if LocalAgent(agentConfig) {
      var session := AddLocalAgentConfig(cfg, DefaultSession, agentConfig.value).value;
      MessageShape(session);
    }
  }
}

=== FILE: settings.dfy ===
/**
 * The read-only configuration the relay consumes and the agent records the
 * agent directory hands back.
 */
module Settings {
  import opened PyJson

  const ApiVersion: string := "2025-05-01-preview"
  const CognitiveServicesDomain: string := "cognitiveservices.azure.com"
  const VoiceAgentEndpoint: string := "voice-agent/realtime"

  /**
   * Resource and project names, the optional default agent, the default
   * model deployment and the optional static API key.
   */
  datatype Config = Config(
    resourceName: string,
    projectName: string,
    defaultAgentId: Option<string>,
    modelDeploymentName: string,
    apiKey: Option<string>)

  /** A configuration value that is present and non-empty, i.e. truthy. */
  predicate IsSet(v: Option<string>) {
    v.Some? && v.value != ""
  }

  /** An agent record as the directory returns it: a dict. */
  type AgentRecord = map<string, Json>

  /** The lookup produced a record that is truthy, i.e. a non-empty dict. */
  predicate Resolved(agentConfig: Option<AgentRecord>) {
    agentConfig.Some? && |agentConfig.value| > 0
  }

  predicate IsAzureAgent(rec: AgentRecord) {
    Truthy(Get(rec, "is_azure_agent"))
  }

  /** A resolved record for an agent that the relay configures itself. */
  predicate LocalAgent(agentConfig: Option<AgentRecord>) {
    Resolved(agentConfig) && !IsAzureAgent(agentConfig.value)
  }
}

=== FILE: upstream_url.dfy ===
/**
 * The upstream endpoint a connection dials: a fixed base URL followed by
 * exactly one selector parameter, `agent-id` or `model`, chosen first-match
 * from the resolved agent record, the configured default agent and the
 * default model deployment.
 */
module UpstreamUrl {
  import opened PyJson
  import opened Settings
  import opened QueryString

  /** Everything before the query: scheme, resource host and endpoint path. */
  function Host(cfg: Config): string {
    "wss://" + cfg.resourceName + "." + CognitiveServicesDomain + "/" + VoiceAgentEndpoint
  }

  /** The three query parameters every upstream URL carries, in order. */
  function BaseParams(cfg: Config, requestId: string): seq<(string, string)> {
    [("api-version", ApiVersion),
     ("x-ms-client-request-id", requestId),
     ("agent-project-name", cfg.projectName)]
  }

  /** The URL shared by every branch; `requestId` is the per-connection `uuid4`. */
  function BaseUrl(cfg: Config, requestId: string): string {
    Host(cfg) + "?api-version=" + ApiVersion
    + "&x-ms-client-request-id=" + requestId
    + "&agent-project-name=" + cfg.projectName
  }

  /** The URL for a resolved agent record. */
  function AgentSpecificUrl(rt: Runtime, cfg: Config, base: string, agentId: Json, rec: AgentRecord): string {
    if IsAzureAgent(rec) then base + "&agent-id=" + Show(rt, agentId)
    else base + "&model=" + Show(rt, GetOr(rec, "model", JStr(cfg.modelDeploymentName)))
  }

  /** The upstream URL for the client's agent id and the record the directory gave for it. */
  function BuildUrl(rt: Runtime, cfg: Config, requestId: string, agentId: Json, agentConfig: Option<AgentRecord>): (url: string)
    ensures BaseUrl(cfg, requestId) <= url
  {
    var base := BaseUrl(cfg, requestId);
    if Resolved(agentConfig) then AgentSpecificUrl(rt, cfg, base, agentId, agentConfig.value)
    else if IsSet(cfg.defaultAgentId) then base + "&agent-id=" + cfg.defaultAgentId.value
    else base + "&model=" + cfg.modelDeploymentName
  }

  /** The upstream resource a connection addresses. */
  datatype Target = AgentTarget(agentId: string) | ModelTarget(model: string)

  /**
   * The selection rule stated on its own: a remote-hosted agent record wins,
   * then a local agent record with its model, then the configured default
   * agent, then the default model.
   */
  function SelectTarget(rt: Runtime, cfg: Config, agentId: Json, agentConfig: Option<AgentRecord>): Target {
    if Resolved(agentConfig) && IsAzureAgent(agentConfig.value) then
      AgentTarget(Show(rt, agentId))
    else if Resolved(agentConfig) then
      ModelTarget(Show(rt, GetOr(agentConfig.value, "model", JStr(cfg.modelDeploymentName))))
    else if IsSet(cfg.defaultAgentId) then
      AgentTarget(cfg.defaultAgentId.value)
    else
      ModelTarget(cfg.modelDeploymentName)
  }

  function TargetParam(t: Target): (string, string) {
    match t
    case AgentTarget(id) => ("agent-id", id)
    case ModelTarget(m) => ("model", m)
  }

  /** Component values that cannot break the query apart. */
  predicate QuerySafe(rt: Runtime, cfg: Config, requestId: string, agentId: Json, agentConfig: Option<AgentRecord>) {
    && '?' !in cfg.resourceName
    && '&' !in requestId
    && '&' !in cfg.projectName
    && '&' !in TargetParam(SelectTarget(rt, cfg, agentId, agentConfig)).1
  }

  /** The URL is the base URL followed by the selected target's parameter. */
  lemma BuildUrlSelectsTarget(rt: Runtime, cfg: Config, requestId: string, agentId: Json, agentConfig: Option<AgentRecord>)
    ensures var p := TargetParam(SelectTarget(rt, cfg, agentId, agentConfig));
      BuildUrl(rt, cfg, requestId, agentId, agentConfig) == BaseUrl(cfg, requestId) + "&" + p.0 + "=" + p.1
  {
    var base := BaseUrl(cfg, requestId);
    var p := TargetParam(SelectTarget(rt, cfg, agentId, agentConfig));
    if p.0 == "agent-id" {
      AgentIdLiteral();
      ParamSuffix(base, "agent-id", p.1);
    } else {
      ModelLiteral();
      ParamSuffix(base, "model", p.1);
    }
  }

  lemma ParamSuffix(base: string, key: string, value: string)
    ensures base + ("&" + key + "=") + value == base + "&" + key + "=" + value
  {
  }

  lemma AgentIdLiteral()
    ensures "&agent-id=" == "&" + "agent-id" + "="
  {
  }

  lemma ModelLiteral()
    ensures "&model=" == "&" + "model" + "="
  {
  }

  lemma HostHasNoQueryMark(cfg: Config)
    requires '?' !in cfg.resourceName
    ensures '?' !in Host(cfg)
  {
    assert '?' !in "wss://";
    assert '?' !in CognitiveServicesDomain;
    assert '?' !in VoiceAgentEndpoint;
  }

  lemma FourFields(head: string, params: seq<(string, string)>)
    requires |params| == 4
    ensures QueryUrl(head, params)
         == head + "?" + (Field(params[0]) + "&" + (Field(params[1]) + "&" + (Field(params[2]) + "&" + Field(params[3]))))
  {
    var fields := seq(|params|, k requires 0 <= k < |params| => Field(params[k]));
    assert fields[1..][1..][1..] == [fields[3]];
    assert Join(fields[1..][1..][1..], '&') == fields[3];
    assert fields[1..][1..] == [fields[2], fields[3]];
    assert Join(fields[1..][1..], '&') == fields[2] + "&" + fields[3];
    assert fields[1..] == [fields[1], fields[2], fields[3]];
    assert Join(fields[1..], '&') == fields[1] + "&" + (fields[2] + "&" + fields[3]);
  }

  lemma Regroup(h: string, f0: string, f1: string, f2: string, f3: string)
    ensures h + "?" + f0 + "&" + f1 + "&" + f2 + "&" + f3 == h + "?" + (f0 + "&" + (f1 + "&" + (f2 + "&" + f3)))
  {
  }

  lemma SplitLiterals(h: string, v: string, r: string, p: string, k: string, w: string)
    ensures h + "?api-version=" + v + "&x-ms-client-request-id=" + r + "&agent-project-name=" + p + "&" + k + "=" + w
         == h + "?" + ("api-version" + "=" + v) + "&" + ("x-ms-client-request-id" + "=" + r)
            + "&" + ("agent-project-name" + "=" + p) + "&" + (k + "=" + w)
  {
    VersionLiteral();
    RequestIdLiteral();
    ProjectLiteral();
  }

  lemma VersionLiteral()
    ensures "?api-version=" == "?" + "api-version" + "="
  {
  }

  lemma RequestIdLiteral()
    ensures "&x-ms-client-request-id=" == "&" + "x-ms-client-request-id" + "="
  {
  }

  lemma ProjectLiteral()
    ensures "&agent-project-name=" == "&" + "agent-project-name" + "="
  {
  }

  lemma UrlFields(rt: Runtime, cfg: Config, requestId: string, agentId: Json, agentConfig: Option<AgentRecord>)
    ensures var params := BaseParams(cfg, requestId) + [TargetParam(SelectTarget(rt, cfg, agentId, agentConfig))];
      BuildUrl(rt, cfg, requestId, agentId, agentConfig)
      == Host(cfg) + "?" + (Field(params[0]) + "&" + (Field(params[1]) + "&" + (Field(params[2]) + "&" + Field(params[3]))))
  {
    var t := TargetParam(SelectTarget(rt, cfg, agentId, agentConfig));
    BuildUrlSelectsTarget(rt, cfg, requestId, agentId, agentConfig);
    SplitLiterals(Host(cfg), ApiVersion, requestId, cfg.projectName, t.0, t.1);
    Regroup(Host(cfg), Field(("api-version", ApiVersion)), Field(("x-ms-client-request-id", requestId)),
            Field(("agent-project-name", cfg.projectName)), Field(t));
  }

  lemma ParamsArePlain(rt: Runtime, cfg: Config, requestId: string, agentId: Json, agentConfig: Option<AgentRecord>)
    requires QuerySafe(rt, cfg, requestId, agentId, agentConfig)
    ensures var params := BaseParams(cfg, requestId) + [TargetParam(SelectTarget(rt, cfg, agentId, agentConfig))];
      forall k :: 0 <= k < |params| ==> Plain(params[k])
  {
    var params := BaseParams(cfg, requestId) + [TargetParam(SelectTarget(rt, cfg, agentId, agentConfig))];
    KeysArePlain();
    assert params[0] == ("api-version", ApiVersion);
    assert params[1] == ("x-ms-client-request-id", requestId);
    assert params[2] == ("agent-project-name", cfg.projectName);
    assert params[3] == TargetParam(SelectTarget(rt, cfg, agentId, agentConfig));
  }

  lemma KeysArePlain()
    ensures Plain(("api-version", ApiVersion))
    ensures forall v :: '&' !in v ==> Plain(("x-ms-client-request-id", v)) && Plain(("agent-project-name", v))
    ensures forall v :: '&' !in v ==> Plain(("agent-id", v)) && Plain(("model", v))
  {
    NoSeparators("api-version");
    NoSeparators("x-ms-client-request-id");
    NoSeparators("agent-project-name");
    NoSeparators("agent-id");
    NoSeparators("model");
    VersionIsPlain();
  }

  /** A key made of lower-case letters and hyphens contains neither separator. */
  lemma NoSeparators(key: string)
    requires forall k :: 0 <= k < |key| ==> 'a' <= key[k] <= 'z' || key[k] == '-'
    ensures '=' !in key && '&' !in key
  {
  }

  lemma VersionIsPlain()
    ensures '&' !in ApiVersion
  {
    assert forall k :: 0 <= k < |ApiVersion| ==> '0' <= ApiVersion[k] <= '9' || 'a' <= ApiVersion[k] <= 'z' || ApiVersion[k] == '-';
  }

  /**
   * Read back, every upstream URL has exactly four query parameters: the API
   * version, the request id, the project name, and the selected target.
   */
  lemma UrlQueryParameters(rt: Runtime, cfg: Config, requestId: string, agentId: Json, agentConfig: Option<AgentRecord>)
    requires QuerySafe(rt, cfg, requestId, agentId, agentConfig)
    ensures QueryParams(BuildUrl(rt, cfg, requestId, agentId, agentConfig))
         == BaseParams(cfg, requestId) + [TargetParam(SelectTarget(rt, cfg, agentId, agentConfig))]
  {
    var params := BaseParams(cfg, requestId) + [TargetParam(SelectTarget(rt, cfg, agentId, agentConfig))];
    ParamsArePlain(rt, cfg, requestId, agentId, agentConfig);
    HostHasNoQueryMark(cfg);
    QueryRoundTrip(Host(cfg), params);
    FourFields(Host(cfg), params);
    UrlFields(rt, cfg, requestId, agentId, agentConfig);
  }

  predicate HasKey(params: seq<(string, string)>, key: string) {
    exists k :: 0 <= k < |params| && params[k].0 == key
  }

  /**
   * A remote-hosted agent is addressed by the client's agent id: the URL is
   * the base plus `&agent-id=<id>`, and its query has no `model` parameter.
   */
  lemma AzureAgentUrl(rt: Runtime, cfg: Config, requestId: string, agentId: Json, agentConfig: Option<AgentRecord>)
    requires Resolved(agentConfig) && IsAzureAgent(agentConfig.value)
    ensures BuildUrl(rt, cfg, requestId, agentId, agentConfig) == BaseUrl(cfg, requestId) + "&agent-id=" + Show(rt, agentId)
    ensures QuerySafe(rt, cfg, requestId, agentId, agentConfig) ==>
      var q := QueryParams(BuildUrl(rt, cfg, requestId, agentId, agentConfig));
      !HasKey(q, "model") && q[|q| - 1] == ("agent-id", Show(rt, agentId))
  {
    if QuerySafe(rt, cfg, requestId, agentId, agentConfig) {
      UrlQueryParameters(rt, cfg, requestId, agentId, agentConfig);
    }
  }

  /**
   * A local agent is addressed by model: the record's `model`, or the
   * default deployment when the record has no such key; no `agent-id`.
   */
  lemma LocalAgentUrl(rt: Runtime, cfg: Config, requestId: string, agentId: Json, agentConfig: Option<AgentRecord>)
    requires LocalAgent(agentConfig)
    ensures var m := if "model" in agentConfig.value then Show(rt, agentConfig.value["model"]) else cfg.modelDeploymentName;
      BuildUrl(rt, cfg, requestId, agentId, agentConfig) == BaseUrl(cfg, requestId) + "&model=" + m
    ensures QuerySafe(rt, cfg, requestId, agentId, agentConfig) ==>
      !HasKey(QueryParams(BuildUrl(rt, cfg, requestId, agentId, agentConfig)), "agent-id")
  {
    if QuerySafe(rt, cfg, requestId, agentId, agentConfig) {
      UrlQueryParameters(rt, cfg, requestId, agentId, agentConfig);
    }
  }

  /**
   * Without a resolved record (no agent id, a directory miss, or an empty
   * record) the client's id plays no part: the URL names the configured
   * default agent if there is one, else the default model.
   */
  lemma UnresolvedUrl(rt: Runtime, cfg: Config, requestId: string, agentId: Json, agentConfig: Option<AgentRecord>)
    requires !Resolved(agentConfig)
    ensures BuildUrl(rt, cfg, requestId, agentId, agentConfig)
         == BaseUrl(cfg, requestId) + (if IsSet(cfg.defaultAgentId) then "&agent-id=" + cfg.defaultAgentId.value
                                       else "&model=" + cfg.modelDeploymentName)
    ensures forall other: Json :: BuildUrl(rt, cfg, requestId, agentId, agentConfig) == BuildUrl(rt, cfg, requestId, other, None)
  {
  }

  /**
   * Every URL starts with `wss://<resource>.cognitiveservices.azure.com/voice-agent/realtime?api-version=2025-05-01-preview`
   * and then carries the request id and project name.
   */
  lemma UrlPrefix(rt: Runtime, cfg: Config, requestId: string, agentId: Json, agentConfig: Option<AgentRecord>)
    ensures "wss://" + cfg.resourceName + "." + CognitiveServicesDomain + "/" + VoiceAgentEndpoint + "?api-version=" + ApiVersion
         <= BuildUrl(rt, cfg, requestId, agentId, agentConfig)
    ensures var q := QueryParams(BuildUrl(rt, cfg, requestId, agentId, agentConfig));
      QuerySafe(rt, cfg, requestId, agentId, agentConfig) ==>
      |q| == 4 && q[1] == ("x-ms-client-request-id", requestId) && q[2] == ("agent-project-name", cfg.projectName)
  {
    var p := Host(cfg) + "?api-version=" + ApiVersion;
    var rest := "&x-ms-client-request-id=" + requestId + "&agent-project-name=" + cfg.projectName;
    assert BaseUrl(cfg, requestId) == p + rest;
    if QuerySafe(rt, cfg, requestId, agentId, agentConfig) {
      UrlQueryParameters(rt, cfg, requestId, agentId, agentConfig);
    }
  }

  /**
   * A numeric agent id of a remote-hosted agent goes into the URL as its
   * signed decimal numeral, which reads back as that number.
   */
  lemma NumericAgentIdUrl(rt: Runtime, cfg: Config, requestId: string, i: int, agentConfig: Option<AgentRecord>)
    requires Resolved(agentConfig) && IsAzureAgent(agentConfig.value)
    ensures var prefix := BaseUrl(cfg, requestId) + "&agent-id=";
            var url := BuildUrl(rt, cfg, requestId, JInt(i), agentConfig);
      && prefix <= url
      && var t := url[|prefix|..];
      if i < 0 then |t| > 1 && t[0] == '-' && AllDigits(t[1..]) && DecimalValue(t[1..]) == -i
      else AllDigits(t) && DecimalValue(t) == i
  {
    var prefix := BaseUrl(cfg, requestId) + "&agent-id=";
    AzureAgentUrl(rt, cfg, requestId, JInt(i), agentConfig);
    assert BuildUrl(rt, cfg, requestId, JInt(i), agentConfig) == prefix + Show(rt, JInt(i));
    assert (prefix + Show(rt, JInt(i)))[|prefix|..] == Show(rt, JInt(i));
    ShowInt(rt, i);
  }
}

=== FILE: wire.dfy ===
/**
 * What one client connection does to the outside world, as a sequence of
 * events, and the fixed frames and message types the relay knows about.
 */
module Wire {
  import opened PyJson

  /**
   * One externally visible action. `UpstreamSend` and `ClientSend` carry a
   * structured frame that goes out as its JSON text; `UpstreamForward` and
   * `ClientForward` carry raw text relayed verbatim from the other side.
   */
  datatype Event =
    | DirectoryLookup(agentId: Json)
    | UpstreamConnect(url: string, headers: map<string, string>)
    | UpstreamSend(frame: Json)
    | UpstreamForward(text: string)
    | ClientSend(frame: Json)
    | ClientForward(text: string)
    | UpstreamClose

  /** One blocking receive: a text frame, the end of the stream, or a receive that raised. */
  datatype Receive = Frame(text: string) | Closed | ReceiveError

  const SessionUpdateType: string := "session.update"
  const ProxyConnectedType: string := "proxy.connected"
  const ErrorType: string := "error"
  const FunctionCallDoneType: string := "response.function_call_arguments.done"
  const ItemCreateType: string := "conversation.item.create"

  /** `frame.get("type")` for an object frame. */
  function TypeOf(frame: Json): Json {
    if frame.JObj? then Get(frame.fields, "type") else JNull
  }

  predicate HasType(frame: Json, t: string) {
    TypeOf(frame) == JStr(t)
  }

  function ErrorFrame(message: string): Json {
    JObj(map["type" := JStr(ErrorType), "error" := JObj(map["message" := JStr(message)])])
  }

  function ProxyConnectedFrame(): Json {
    JObj(map["type" := JStr(ProxyConnectedType), "message" := JStr("Connected to Azure Voice API")])
  }

  predicate ToClient(e: Event) {
    e.ClientSend? || e.ClientForward?
  }

  predicate ToUpstream(e: Event) {
    e.UpstreamSend? || e.UpstreamForward?
  }

  /** The elements of `s` that satisfy `p`, in order. */
  function Filter<T>(s: seq<T>, p: T -> bool): (r: seq<T>)
    ensures forall x :: x in r ==> x in s && p(x)
    ensures |r| <= |s|
  {
    if |s| == 0 then []
    else if p(s[0]) then [s[0]] + Filter(s[1..], p)
    else Filter(s[1..], p)
  }

  lemma {:induction false} FilterConcat<T>(a: seq<T>, b: seq<T>, p: T -> bool)
    ensures Filter(a + b, p) == Filter(a, p) + Filter(b, p)
    decreases |a|
  {
    if |a| == 0 {
      assert a + b == b;
    } else {
      assert (a + b)[1..] == a[1..] + b;
      FilterConcat(a[1..], b, p);
    }
  }

  lemma {:induction false} FilterNone<T>(s: seq<T>, p: T -> bool)
    requires forall e :: e in s ==> !p(e)
    ensures Filter(s, p) == []
    decreases |s|
  {
    if |s| > 0 {
      assert s[0] in s;
      forall e | e in s[1..] ensures !p(e) {
        assert e in s;
      }
      FilterNone(s[1..], p);
    }
  }

  lemma {:induction false} FilterAll<T>(s: seq<T>, p: T -> bool)
    requires forall e :: e in s ==> p(e)
    ensures Filter(s, p) == s
    decreases |s|
  {
    if |s| > 0 {
      assert s[0] in s;
      forall e | e in s[1..] ensures p(e) {
        assert e in s;
      }
      FilterAll(s[1..], p);
      assert [s[0]] + s[1..] == s;
    }
  }
  /** What `f` picks out of each element of `s`, concatenated in order. */
  function Collect<T, U>(s: seq<T>, f: T -> seq<U>): seq<U>
    decreases |s|
  {
    if |s| == 0 then [] else f(s[0]) + Collect(s[1..], f)
  }

  lemma {:induction false} CollectConcat<T, U>(a: seq<T>, b: seq<T>, f: T -> seq<U>)
    ensures Collect(a + b, f) == Collect(a, f) + Collect(b, f)
    decreases |a|
  {
    if |a| == 0 {
      assert a + b == b;
    } else {
      assert (a + b)[0] == a[0];
      assert (a + b)[1..] == a[1..] + b;
      CollectConcat(a[1..], b, f);
    }
  }
}
